=== FILE: README.md ===
# JoyStory flashcards in Dafny

JoyStory is a study app for school pupils. A pupil creates a flashcard set by
choosing a grade, a subject and a topic. A language model writes ten cards for
it, and the pupil goes through them marking each one "understood" or "don't
understand". At the end of a pass, the cards the pupil did not understand go
back to the language model, which writes explanatory cards. These are appended
to the session and studied the same way. Two further pages summarise progress:
an analysis page for one set and a dashboard of all the pupil's sets.

This project models the logic under those pages as pure functions over
immutable data:

- `Study` (study.dfy) is the study session. Its state is
  `{cards, cursor, review, complete}`, and the two verdict handlers, the
  remediation round, completion and restart are transitions on it. Each
  handler returns the new state together with the list of writes and
  generator requests it issued (`Store.Effect`). The answers to the flag and
  completion writes are never read, so they are not inputs. The generator's
  and the insert's outcomes are inputs (`Study.Remediation`).
- A handler runs on the state of the render that showed its buttons, and its
  state updates take effect only after it returns. The model keeps this:
  - "Don't understand" on the last card starts a round about the review list
    as it was before that card was queued.
  - A successful round clears the review list after the queued append.
- `CreateSet` (wizard.dfy) is the three-step set-creation wizard: its step
  counter, the gate on its buttons, the progress percentage, and the
  submission that inserts the set, asks for ten cards and inserts one row per
  returned item.
- `Analysis` (analysis.dfy) holds the analysis page's counts, its completion
  rate (an exact real) and the status label of each card.
- `Dashboard` (dashboard.dfy) holds the dashboard's tabs, figures and list
  updates.
- `Generator` (generator.dfy) is the language-model client. It covers:
  - extracting the JSON from a fenced reply;
  - normalising the parsed items;
  - the numbered list of difficult cards in the prompt;
  - how every failure collapses into one message per function.

  HTTP and `JSON.parse` are inputs: a `Reply` and a `parse` function.
- `Store` (store.dfy) gives the semantics of the two shared reads: one owned
  set by id, and a set's cards in `order_index` order. It also defines the
  query outcomes and the effect log.
- `Strings`, `Rounding`, `Lists` and `Js` model the JavaScript operations the
  code relies on:
  - `trim` with the ECMAScript whitespace set;
  - `${n}` for a natural number, and `join`;
  - `Math.round(a / b * 100)` as the integer `(200a + b) div 2b`;
  - `filter`;
  - property access and truthiness on parsed values.

Behaviour of the code worth knowing; the model follows the code:

- Remediation is not limited to one round. Explanatory cards are not told
  apart, so a non-empty review list at the last card starts another round
  (`Study.RoundsRepeat`).
- A card marked "don't understand" as the last card is not part of the round
  it starts. When it is the only such card, the session completes with no
  round at all (`Study.LastCardMissesItsOwnRound`).
- A generator that returns no cards leaves the session with no card shown and
  not complete (`Study.EmptyRoundStalls`).
- A failed insert of the explanatory cards completes the session, just as a
  generator failure does.
- Nothing guards `handleRestart` or the verdict handlers against the
  completion state. The completion modal is what stops the clicks, and that
  is presentation.

## Model

| member | source | states |
|---|---|---|
| Strings.Trim | src/lib/openai.ts:18-21 | `trim` leaves no whitespace at either end and never lengthens its input |
| Strings.TrimDropsSurroundingWhitespace | src/lib/openai.ts:18-21 | whitespace runs around a text are exactly what `trim` removes |
| Strings.TrimIgnoresLeading | src/lib/openai.ts:18-21 | leading whitespace does not change the trimmed text |
| Strings.TrimIgnoresTrailing | src/lib/openai.ts:18-21 | trailing whitespace does not change the trimmed text |
| Strings.TrimKeepsTrimmed | src/lib/openai.ts:18-21 | a text without outer whitespace is its own trim |
| Strings.TrimIdempotent | src/lib/openai.ts:18-21 | trimming twice is trimming once |
| Strings.Decimal | src/lib/openai.ts:107 | `${n}` is a non-empty run of digits without a leading zero |
| Strings.DecimalRoundTrip | src/lib/openai.ts:107 | reading the rendered number back gives the number |
| Strings.SplitJoin | src/lib/openai.ts:107 | splitting a `join('\n')` recovers the lines when no line contains the separator |
| Rounding.RoundPercent | src/pages/DashboardPage.tsx:202 | the integer percentage lies within half a unit of 100·part/whole, ties going up |
| Rounding.RoundPercentIsNearest | src/pages/DashboardPage.tsx:202 | the same bound stated over the reals: r − ½ ≤ 100·part/whole < r + ½ |
| Rounding.RoundPercentBounded | src/pages/DashboardPage.tsx:202 | a share of a whole is shown as at most 100 |
| Rounding.RoundPercentEnds | src/pages/DashboardPage.tsx:202 | all of a whole shows 100 and none shows 0 |
| Rounding.RoundPercentMonotonic | src/pages/DashboardPage.tsx:202 | more of the same whole never shows less |
| Lists.Filter | src/pages/DashboardPage.tsx:97-98 | the result holds exactly the elements satisfying the predicate and is no longer than the input |
| Lists.FilterConcat | src/pages/DashboardPage.tsx:97-98 | filtering keeps the input order: a filtered concatenation is the concatenation of the filtered parts |
| Lists.FilterComplementSizes | src/pages/DashboardPage.tsx:97-100 | filtering by a predicate and by its negation splits the input's length |
| Lists.FilterKeepsAll | src/pages/DashboardPage.tsx:87 | filtering returns the input unchanged iff every element satisfies the predicate |
| Lists.CountAll | src/pages/AnalysisPage.tsx:73 | the count equals the length iff every element satisfies the predicate |
| Lists.CountNone | src/pages/AnalysisPage.tsx:73 | the count is zero iff no element satisfies the predicate |
| Lists.FilterAgree | src/pages/AnalysisPage.tsx:73-74 | predicates that agree on every element filter alike |
| Js.Get | src/lib/openai.ts:80-83 | property access raises a TypeError exactly on null and undefined; a key the object has reads its value, and a missing key reads as undefined |
| Js.First | src/lib/openai.ts:75 | `[0]` raises exactly on null and undefined and gives an array's first element |
| Types.GradesAreOneToTwelve | src/types/index.ts:64 | the offered grades are exactly the integers 1 to 12, in order |
| Types.RowsFor | src/components/CreateFlashcardSetModal.tsx:62-70 | one row per generator item, in order, carrying its content and explanation, numbered from the base, flags cleared |
| Types.RowsForConcat | src/pages/StudyPage.tsx:167-175 | rows for a concatenation are the rows of each part, the second numbered on from the first |
| Types.RowsForKeepsContents | src/components/CreateFlashcardSetModal.tsx:62-70 | the generator items can be read back from the rows |
| Generator.FirstFence | src/lib/openai.ts:16 | the result is a fence position at or after the start with no fence before it, or none exists |
| Generator.FirstFenceIs | src/lib/openai.ts:16 | a fence with none before it is the first fence |
| Generator.MatchFence | src/lib/openai.ts:16 | the regular expression matches from the first fence to the first fence three or more characters later, past an optional `json` tag, and fails only when no two fences are that far apart |
| Generator.FenceFreeSlice | src/lib/openai.ts:16-18 | a stretch with no fence start is fence-free |
| Generator.FenceFreeTrim | src/lib/openai.ts:18 | trimming keeps a text fence-free |
| Generator.ExtractJson | src/lib/openai.ts:14-22 | the result is trimmed; with no fenced block it is the trimmed input; otherwise it is the trimmed capture of the leftmost match and contains no fence |
| Generator.FencesOfBlock | src/lib/openai.ts:16 | after text without backticks, the first fence opens the block and the first fence after it closes it, whatever follows |
| Generator.TagOfBlock | src/lib/openai.ts:16 | the pattern sees the `json` tag exactly when the block was written with one |
| Generator.ExtractLeftmost | src/lib/openai.ts:14-19 | a reply with text before a fenced block, tagged `json` or not, and anything after it (a second block included) gives back the trimmed body of that leftmost block |
| Generator.NormaliseItem | src/lib/openai.ts:80-83 | an item raises exactly when it is null or undefined; its content is kept; its explanation is kept when truthy and becomes null when falsy or missing |
| Generator.MissingExplanationIsNull | src/lib/openai.ts:80-83 | an item without an explanation key, the shape the card prompt asks for, gets a null explanation and keeps its content |
| Generator.Normalise | src/lib/openai.ts:80-83 | success iff the parsed value is an array of normalisable items; one item per array element, in order, whatever count was asked for |
| Generator.NormaliseEncode | src/lib/openai.ts:80-83 | normalising the JSON array that encodes some items returns those items |
| Generator.NumberedLines | src/lib/openai.ts:107 | line i is "i+1. " followed by the i-th difficult card |
| Generator.DifficultListLines | src/lib/openai.ts:107 | the prompt's list has one line per difficult card, numbered from 1, in input order |
| Generator.ParseReply | src/lib/openai.ts:77-88 | success exactly when the content is a string whose extracted text parses to a value that normalises, and then the normalised items; any failure of extraction, parsing or mapping is the invalid-format error |
| Generator.Generate | src/lib/openai.ts:30-92 | a request is sent iff the key is configured; a missing key gives its own error; success exactly when the key is configured and the reply's content parses, with the parsed items as the result; every later failure is the function's generic message; a success has one item per element of the parsed array |
| Generator.GenerateFlashcards | src/lib/openai.ts:24-93 | a configured key and a well-formed reply give the parsed items, and nothing else succeeds; callers see only the key error or the generic card error, never the invalid-format one |
| Generator.GenerateExplanatoryFlashcards | src/lib/openai.ts:95-165 | a configured key and a well-formed reply give the parsed items, and nothing else succeeds; callers see only the key error or the generic explanation error |
| Generator.ChatDataContent | src/lib/openai.ts:75 | `response.data.choices[0].message.content` reads the text of the first choice of a completion response |
| Generator.ParseReplyOf | src/lib/openai.ts:77-83 | a string content whose extracted text parses to the JSON of some items is read back as exactly those items |
| Generator.ParseReplyRoundTrip | src/lib/openai.ts:14-83 | a reply whose fenced block, tagged or not and after backtick-free text, holds the JSON of some items is read back as exactly those items |
| Generator.GenerateRoundTrip | src/lib/openai.ts:30-83 | with the key configured, a response whose text parses to the JSON of some items returns exactly those items, for either request kind |
| Store.MessageOr | src/pages/StudyPage.tsx:79 | a thrown Error shows its own message, and any other thrown value shows the fallback message |
| Store.MessageOrIgnoresFallback | src/pages/AnalysisPage.tsx:87 | the fallback text matters exactly when the thrown value is not an Error; a message other than the fallback means an Error was thrown |
| Store.SelectOwnedSet | src/pages/StudyPage.tsx:45-50 | a returned set is in the table with the requested id and owner; the lookup itself never fails otherwise |
| Store.UniqueOwnedMatch | src/pages/StudyPage.tsx:45-50 | with unique ids at most one row matches id and owner |
| Store.SelectOwnedSetFinds | src/pages/AnalysisPage.tsx:43-55 | the set is found iff a row has that id and belongs to that user; a set owned by someone else is "not found" |
| Store.InsertByIndex | src/pages/StudyPage.tsx:66 | inserting into an ordered list keeps it ordered and adds exactly that card |
| Store.SortByIndex | src/pages/StudyPage.tsx:66 | `order('order_index')` returns a permutation of its input in ascending `order_index` |
| Store.SelectCards | src/pages/AnalysisPage.tsx:60-64 | a set's cards are every card of that set, each as often as in the table, in ascending `order_index` |
| Study.Load | src/pages/StudyPage.tsx:37-85 | loading succeeds iff the set is found and has cards, starting at card 0 with an empty review list; a missing set and an empty set give their own messages; a failing query shows the thrown Error's message, or the load-failed message for anything else |
| Study.LoadedSessionStarts | src/pages/StudyPage.tsx:18-22 | a loaded session is valid, shows its first card, and equals its own restart |
| Study.AddToReview | src/pages/StudyPage.tsx:127-130 | the card's id is present afterwards, no other id is added, the old list is a prefix, and distinct ids stay distinct |
| Study.AddToReviewIdempotent | src/pages/StudyPage.tsx:127-130 | marking the same card twice adds it once |
| Study.Contents | src/pages/StudyPage.tsx:157 | the difficult texts are the review cards' contents in review order |
| Study.GenerateExplanatoryCards | src/pages/StudyPage.tsx:147-196 | nothing pending completes; otherwise the pending contents are requested; on success the rows are numbered from the old length and flagged explanatory, the returned cards appended, the cursor on the first and the review list cleared; on any failure the session completes with its cards unchanged |
| Study.HandleUnderstand | src/pages/StudyPage.tsx:87-114 | writes understood=true and needs_review=false; before the last card it only advances; on the last card it completes when nothing is pending and requests a round otherwise |
| Study.HandleDontUnderstand | src/pages/StudyPage.tsx:116-145 | writes understood=false and needs_review=true; before the last card it queues the card and advances; on the last card the round is requested for the review list held before the card was queued |
| Study.Restart | src/pages/StudyPage.tsx:221-226 | back to card 0 with an empty review list and not complete, over the same cards |
| Study.VerdictFlagsExclusive | src/pages/StudyPage.tsx:92-124 | each verdict writes the flags of the shown card, and never both flags |
| Study.VerdictKeepsValid | src/pages/StudyPage.tsx:87-196 | after either verdict, remediation included, the cursor is at most the number of cards (it equals it when an empty round leaves no card shown) and the review list holds cards of the session, each id once |
| Study.RestartKeepsValid | src/pages/StudyPage.tsx:221-226 | a restart keeps a session valid, and a second restart changes nothing |
| Study.VerdictAdvances | src/pages/StudyPage.tsx:98-137 | before the last card either verdict advances the cursor by one, keeps the cards and issues only the flag write |
| Study.Pass | src/pages/StudyPage.tsx:99-101 | verdicts on successive non-last cards move the cursor by their number and leave cards and completion alone |
| Study.PassCollects | src/pages/StudyPage.tsx:127-130 | after a pass the review list holds exactly its old ids and those of the cards marked "don't understand", without duplicates |
| Study.LastUnderstoodCompletes | src/pages/StudyPage.tsx:104-107 | "understand" on the last card with nothing pending completes without asking the generator |
| Study.RemediationAppends | src/pages/StudyPage.tsx:157-186 | a successful round asks about the review cards in order, inserts one explanatory row per item numbered from the old length, appends the returned cards, lands on the first of them and clears the review list |
| Study.RemediationFailureCompletes | src/pages/StudyPage.tsx:189-193 | a generator or insert failure completes the session with the same cards, the completion write last; nothing else changes, except that a card not understood stays on the review list |
| Study.LastCardMissesItsOwnRound | src/pages/StudyPage.tsx:127-145 | the card marked "don't understand" last is missing from the round it starts; alone, it ends the session unremediated |
| Study.EmptyRoundStalls | src/pages/StudyPage.tsx:184-186 | a round that returns no cards leaves no card shown and the session not complete |
| Study.RoundsRepeat | src/pages/StudyPage.tsx:100-108 | an explanatory last card starts a new round like any other when the review list is non-empty |
| Study.WorkedSession | src/pages/StudyPage.tsx:87-215 | cards A, B, C with B not understood: the round about B yields D at index 3 with cursor 3, and understanding D completes the set |
| CreateSet.Initial | src/components/CreateFlashcardSetModal.tsx:18-22 | the wizard opens at step 1 with nothing chosen |
| CreateSet.Next | src/components/CreateFlashcardSetModal.tsx:24-28 | only the step changes, by one, and not beyond 3 |
| CreateSet.Back | src/components/CreateFlashcardSetModal.tsx:30-34 | only the step changes, by one, and not below 1; grade, subject and topic are kept |
| CreateSet.SecondaryAction | src/components/CreateFlashcardSetModal.tsx:229 | the left button closes at step 1 and goes back otherwise |
| CreateSet.PrimaryAction | src/components/CreateFlashcardSetModal.tsx:236 | the right button submits at step 3 and goes on otherwise |
| CreateSet.Progress | src/components/CreateFlashcardSetModal.tsx:119 | the percentage beside the step is at most 100 |
| CreateSet.ProgressPerStep | src/components/CreateFlashcardSetModal.tsx:119 | steps 1, 2, 3 show 33, 67, 100, each the nearest whole percent of step/3 |
| CreateSet.Apply | src/components/CreateFlashcardSetModal.tsx:228-237 | no navigation or choice starts or stops a submission |
| CreateSet.ApplyKeepsReachable | src/components/CreateFlashcardSetModal.tsx:24-34 | every offered event keeps the step in [1, 3] with a valid grade past step 1 and a valid subject at step 3 |
| CreateSet.RunKeepsReachable | src/components/CreateFlashcardSetModal.tsx:24-34 | the same for any sequence of offered events |
| CreateSet.InitialReachable | src/components/CreateFlashcardSetModal.tsx:18-22 | the opening state satisfies that invariant |
| CreateSet.PrimaryAdvancesOnlyWhenEnabled | src/components/CreateFlashcardSetModal.tsx:236-237 | below step 3 the primary button advances exactly when the step's choice is made and nothing is running |
| CreateSet.WhitespaceTopicBlocks | src/components/CreateFlashcardSetModal.tsx:95 | a topic of only whitespace keeps the submit button disabled |
| CreateSet.NextBackInverse | src/components/CreateFlashcardSetModal.tsx:24-34 | Back undoes Next below step 3 and Next undoes Back above step 1 |
| CreateSet.EnabledSubmitPassesGuard | src/components/CreateFlashcardSetModal.tsx:37 | with a user signed in, a reachable wizard whose submit button is enabled passes the submission guard |
| CreateSet.Submit | src/components/CreateFlashcardSetModal.tsx:36-86 | a missing user, grade, subject or topic does nothing; the set is reported iff the set insert, the generator and the card insert all succeed, after the set insert, a request for 10 cards and the row insert; every failure gives the one message |
| CreateSet.CreatedCardsMatchGenerator | src/components/CreateFlashcardSetModal.tsx:59-70 | 10 cards are requested, and the inserted rows match the generator's items one to one, in order, numbered from 0, unclassified and not explanatory, however many there are |
| CreateSet.FailureLeavesSetBehind | src/components/CreateFlashcardSetModal.tsx:44-86 | a failure after the set insert reports the error and deletes nothing, so the empty set stays |
| Analysis.Analyse | src/pages/AnalysisPage.tsx:72-84 | the total is the number of cards, every count is at most the total, the rate lies in [0, 100] and is 0 without cards |
| Analysis.RateBounded | src/pages/AnalysisPage.tsx:76 | the rate of a part of a whole lies in [0, 100] |
| Analysis.RateEnds | src/pages/AnalysisPage.tsx:76 | for a non-empty whole the rate is 100 iff all are understood and 0 iff none is |
| Analysis.CompletionRateMeaning | src/pages/AnalysisPage.tsx:72-76 | the rate is 100 iff there are cards and all are understood, and 0 iff no card is understood |
| Analysis.RoundNearest | src/pages/AnalysisPage.tsx:232 | `Math.round` gives the integer within half a unit, halves going up |
| Analysis.RoundedRateIsRoundPercent | src/pages/AnalysisPage.tsx:232 | the rounded real rate equals the integer percentage |
| Analysis.RoundedRate | src/pages/AnalysisPage.tsx:232 | the printed rate is the integer percentage of understood cards and lies in [0, 100] |
| Analysis.StatusOf | src/pages/AnalysisPage.tsx:285-291 | understood takes precedence; a card is "not tried" iff neither flag is set |
| Analysis.Label | src/pages/AnalysisPage.tsx:305 | "Anlaşıldı" is printed exactly for understood cards, "Gözden Geçirilmeli" exactly for cards needing review, "Denenmedi" exactly for untried ones |
| Analysis.LabelsDistinct | src/pages/AnalysisPage.tsx:305 | different statuses print different labels |
| Analysis.StatusAgreesWithCounts | src/pages/AnalysisPage.tsx:73-74 | as many cards show "understood" as are counted understood; without doubly flagged cards, as many show "needs review" as are counted for review |
| Analysis.StatusesPartition | src/pages/AnalysisPage.tsx:285-305 | every card shows exactly one status |
| Analysis.Load | src/pages/AnalysisPage.tsx:35-92 | loading succeeds iff the set is found and the card query does not fail, also for a set with no cards; the totals describe the loaded cards; a missing set gives the not-found message; a failing query shows the thrown Error's message, or the load-failed message for anything else |
| Analysis.LoadFromTables | src/pages/AnalysisPage.tsx:43-64 | from the tables, the report exists iff the user owns the set and then covers all of its cards in `order_index` order |
| Dashboard.Current | src/pages/DashboardPage.tsx:97 | the current tab holds exactly the sets not completed |
| Dashboard.Past | src/pages/DashboardPage.tsx:98 | the past tab holds exactly the completed sets |
| Dashboard.TabsPartition | src/pages/DashboardPage.tsx:97-100 | the two tabs together are as large as the list, so the in-progress figure is the number of current sets |
| Dashboard.TabsKeepOrder | src/pages/DashboardPage.tsx:97-98 | both tabs keep the list's order |
| Dashboard.CompletionPercent | src/pages/DashboardPage.tsx:202 | the completion figure is at most 100 and is 0 for no sets |
| Dashboard.CompletionPercentMeaning | src/pages/DashboardPage.tsx:202 | all completed shows 100, none shows 0, and the figure is the nearest whole percentage of completed sets |
| Dashboard.SetCreated | src/pages/DashboardPage.tsx:58-62 | the new set comes first and the others follow in their order |
| Dashboard.CreatedSetHeadsCurrent | src/pages/DashboardPage.tsx:58-62 | a new set heads the current tab and leaves the past tab unchanged |
| Dashboard.Without | src/pages/DashboardPage.tsx:87 | exactly the sets with another id remain |
| Dashboard.Delete | src/pages/DashboardPage.tsx:72-95 | nothing happens unless confirmed; a confirmed delete is issued for the id and user; success removes that id and failure leaves the list |
| Dashboard.WithoutAbsent | src/pages/DashboardPage.tsx:87 | deleting an id no set carries leaves the list unchanged |
| Dashboard.DeleteUndoesCreate | src/pages/DashboardPage.tsx:58-95 | deleting a just-created set with a new id restores the previous list |
| Dashboard.DeleteKeepsOrder | src/pages/DashboardPage.tsx:87 | the remaining sets keep their order |
| Dashboard.LoadSets | src/pages/DashboardPage.tsx:26-52 | without a user nothing changes; rows replace the list and clear the error; a failure keeps the list and shows the message |
| Dashboard.FailedReloadKeepsTabs | src/pages/DashboardPage.tsx:42-48 | the listing held after a failed reload is the last successful one, with the error set; the page shows the error screen rather than the tabs while the error is set |
| Dashboard.LoadSetsIdempotent | src/pages/DashboardPage.tsx:26-52 | loading twice with the same outcome is loading once, and a successful load does not depend on what the page held before |
| Dashboard.LoadRunKeepsLastGood | src/pages/DashboardPage.tsx:26-52 | after any run of fetches the page holds the sets of the last fetch that did not fail, through any later failures, and its error is clear exactly when that fetch was the last |

## Left out

- The prompt prose around the numbered list, the model name, temperature,
  token limit and HTTP headers are not modelled. They are constant text and
  request parameters that no logic here depends on.
- HTTP and `JSON.parse` are inputs. `Generator.Reply` is either a transport
  failure or the response body, and `parse` returns `None` where `JSON.parse`
  would throw.
- The warning logged at module load when the key is missing is left out; it
  is console output.
- The study page's loading and generating flags, toasts, navigation,
  `handleContinue` and `handleRetry` are left out. They are presentation.
  The same goes for the dashboard's tab, modal and deleting-id state.
- The `catch` around each verdict handler is left out. The store's query
  builder reports errors in its result rather than throwing, and the
  handlers ignore that result, so the branch is unreachable in the model.
- The `!flashcardSet` test in `generateExplanatoryCards` and
  `completeSession` is left out. A modelled session always holds its set.
- `completeSession` also refreshes `updated_at`; the model does not, because
  clocks are not modelled. `calculateStudyTime` is left out for the same
  reason.
- Clicks that arrive while a handler is awaiting are not modelled. Each
  handler is one atomic transition.
- Numbers are exact. The completion rate is a real, and `Math.round` of a
  percentage is integer arithmetic, so a result can differ from IEEE doubles
  at an exact half.
- The dashboard's query returns the user's sets newest first. That order is
  taken from the query outcome `Dashboard.SetsQuery`, not computed from
  timestamps.
- The authentication hook, the database client and the presentation
  components (home page, layout, skeletons, card and modal views) have no
  logic this model needs.
- CreateSet.Apply: states only that navigation leaves the submission flag
  alone. The wizard's navigation contract is carried by
  `CreateSet.ApplyKeepsReachable` and `CreateSet.PrimaryAdvancesOnlyWhenEnabled`.
- Store.SelectOwnedSet: models the lookup on a table snapshot. It answers
  "found" or "not found". A failure of the query itself is the separate
  outcome `Store.SetQueryFailed`.

=== FILE: analysis.dfy ===
/** The analysis page: the counts and completion rate of a set's cards and
    the status shown beside each card. */
module Analysis {
  import opened Results
  import opened Types
  import opened Store
  import Lists
  import Rounding

  /** The figures the page shows. `completionRate` is the exact percentage
      of understood cards; the page prints it rounded. */
  datatype Figures = Figures(
    totalCards: nat,
    understoodCards: nat,
    reviewCards: nat,
    explanatoryCards: nat,
    completionRate: real)

  predicate IsUnderstood(c: Flashcard) { c.understood }
  predicate IsForReview(c: Flashcard) { c.needsReview }
  predicate IsExplanatory(c: Flashcard) { c.isExplanatory }

  /** `(understoodCards / totalCards) * 100`, or 0 for no cards. */
  function Rate(understood: nat, total: nat): real {
    if total > 0 then (understood as real / total as real) * 100.0 else 0.0
  }

  /** The analysis of a set's cards. */
  function Analyse(cards: seq<Flashcard>): (a: Figures)
    ensures a.totalCards == |cards|
    ensures a.understoodCards <= a.totalCards && a.reviewCards <= a.totalCards
    ensures a.explanatoryCards <= a.totalCards
    ensures 0.0 <= a.completionRate <= 100.0
    ensures a.totalCards == 0 ==> a.completionRate == 0.0
  {
    var understood := Lists.Count(cards, IsUnderstood);
    var total := |cards|;
    RateBounded(understood, total);
    Figures(total, understood, Lists.Count(cards, IsForReview),
            Lists.Count(cards, IsExplanatory), Rate(understood, total))
  }

  lemma RateBounded(understood: nat, total: nat)
    requires understood <= total
    ensures 0.0 <= Rate(understood, total) <= 100.0
  {
    if total > 0 {
      assert understood as real / total as real <= 1.0;
    }
  }

  /** A whole-number rate of 100 means every understood, 0 none. */
  lemma RateEnds(understood: nat, total: nat)
    requires understood <= total && total > 0
    ensures Rate(understood, total) == 100.0 <==> understood == total
    ensures Rate(understood, total) == 0.0 <==> understood == 0
  {
    var u := understood as real;
    var t := total as real;
    var q := u / t;
    assert q * t == u;
    assert Rate(understood, total) == q * 100.0;
    if q * 100.0 == 100.0 {
      assert q == 1.0;
    }
    if understood == total {
      assert q == 1.0;
    }
    if q * 100.0 == 0.0 {
      assert q == 0.0;
    }
  }

  /** The completion rate is 100 exactly when the set has cards and every
      one of them is understood, and 0 exactly when none is. */
  lemma CompletionRateMeaning(cards: seq<Flashcard>)
    ensures Analyse(cards).completionRate == 100.0 <==>
      |cards| > 0 && forall i :: 0 <= i < |cards| ==> cards[i].understood
    ensures Analyse(cards).completionRate == 0.0 <==>
      forall i :: 0 <= i < |cards| ==> !cards[i].understood
  {
    Lists.CountAll(cards, IsUnderstood);
    Lists.CountNone(cards, IsUnderstood);
    if |cards| > 0 {
      RateEnds(Lists.Count(cards, IsUnderstood), |cards|);
    }
  }

  /** `Math.round` on a non-negative number: halves round up. */
  function Round(x: real): int {
    (x + 0.5).Floor
  }

  /** A number within half of an integer rounds to it. */
  lemma RoundNearest(x: real, n: int)
    requires n as real - 0.5 <= x < n as real + 0.5
    ensures Round(x) == n
  {
  }

  /** The rounded rate is the integer percentage `RoundPercent` computes. */
  lemma RoundedRateIsRoundPercent(understood: nat, total: nat)
    requires total > 0
    ensures Round(Rate(understood, total)) == Rounding.RoundPercent(understood, total)
  {
    var u := understood as real;
    var t := total as real;
    assert (u / t) * 100.0 == 100.0 * u / t;
    Rounding.RoundPercentIsNearest(understood, total);
    RoundNearest(Rate(understood, total), Rounding.RoundPercent(understood, total));
  }

  /** The rounded rate on the page is the integer percentage `RoundPercent`
      computes for the understood cards, so it lies in [0, 100]. */
  lemma RoundedRate(cards: seq<Flashcard>)
    requires |cards| > 0
    ensures var a := Analyse(cards);
      && Round(a.completionRate) == Rounding.RoundPercent(a.understoodCards, a.totalCards)
      && 0 <= Round(a.completionRate) <= 100
  {
    var a := Analyse(cards);
    RoundedRateIsRoundPercent(a.understoodCards, a.totalCards);
    Rounding.RoundPercentBounded(a.understoodCards, a.totalCards);
  }

  // ---------------------------------------------------------------------
  // Per-card status

  datatype Status = Understood | NeedsReview | NotTried

  /** The status shown for a card: understood first, then needs-review. */
  function StatusOf(c: Flashcard): (st: Status)
    ensures st == Understood <==> c.understood
    ensures st == NotTried <==> !c.understood && !c.needsReview
  {
    if c.understood then Understood else if c.needsReview then NeedsReview else NotTried
  }

  /** The label printed for a status. */
  function Label(st: Status): (text: string)
    ensures text in ["Anlaşıldı", "Gözden Geçirilmeli", "Denenmedi"]
    ensures text == "Anlaşıldı" <==> st == Understood
    ensures text == "Gözden Geçirilmeli" <==> st == NeedsReview
    ensures text == "Denenmedi" <==> st == NotTried
  {
    match st
    case Understood => "Anlaşıldı"
    case NeedsReview => "Gözden Geçirilmeli"
    case NotTried => "Denenmedi"
  }

  /** Different statuses print different labels. */
  lemma LabelsDistinct(a: Status, b: Status)
    ensures Label(a) == Label(b) <==> a == b
  {
  }

  predicate ShownUnderstood(c: Flashcard) { StatusOf(c) == Understood }
  predicate ShownForReview(c: Flashcard) { StatusOf(c) == NeedsReview }

  /** As many cards are shown understood as the page counts; and as many are
      shown for review as it counts for review when no card carries both
      flags, which is the case for every card the study page has written. */
  lemma StatusAgreesWithCounts(cards: seq<Flashcard>)
    ensures Lists.Count(cards, ShownUnderstood) == Analyse(cards).understoodCards
    ensures (forall i :: 0 <= i < |cards| ==> !(cards[i].understood && cards[i].needsReview)) ==>
      Lists.Count(cards, ShownForReview) == Analyse(cards).reviewCards
  {
    Lists.FilterAgree(cards, ShownUnderstood, IsUnderstood);
    if forall i :: 0 <= i < |cards| ==> !(cards[i].understood && cards[i].needsReview) {
      Lists.FilterAgree(cards, ShownForReview, IsForReview);
    }
  }

  predicate ShownNotTried(c: Flashcard) { StatusOf(c) == NotTried }

  /** Every card shows exactly one status. */
  lemma {:induction false} StatusesPartition(cards: seq<Flashcard>)
    ensures Lists.Count(cards, ShownUnderstood) + Lists.Count(cards, ShownForReview)
          + Lists.Count(cards, ShownNotTried) == |cards|
  {
    if |cards| > 0 {
      StatusesPartition(cards[1..]);
    }
  }

  // ---------------------------------------------------------------------
  // Loading

  const NotFoundMessage := "Çalışma seansı bulunamadı veya erişim izniniz yok"
  const LoadFailedMessage := "Analiz verileri yüklenemedi"

  datatype Report = Report(flashcardSet: FlashcardSet, cards: seq<Flashcard>, figures: Figures)

  /** `fetchAnalysisData`: the set lookup, then the card query; a set with
      no cards is analysed like any other. */
  function Load(setQuery: SetQuery, cardsQuery: CardsQuery): (r: Result<Report, string>)
    ensures r.Success? <==> setQuery.SetRow? && !cardsQuery.CardsQueryFailed?
    ensures r.Success? ==>
      && r.value.flashcardSet == setQuery.row
      && r.value.cards == (if cardsQuery.CardRows? then cardsQuery.cards else [])
      && r.value.figures.totalCards == |r.value.cards|
    ensures setQuery.NoSingleRow? ==> r == Failure(NotFoundMessage)
    ensures setQuery.SetQueryFailed? ==> r == Failure(MessageOr(setQuery.error, LoadFailedMessage))
    ensures setQuery.SetRow? && cardsQuery.CardsQueryFailed? ==>
      r == Failure(MessageOr(cardsQuery.error, LoadFailedMessage))
  {
    match setQuery
    case NoSingleRow => Failure(NotFoundMessage)
    case SetQueryFailed(e) => Failure(MessageOr(e, LoadFailedMessage))
    case SetRow(row) =>
      match cardsQuery
      case CardsQueryFailed(e) => Failure(MessageOr(e, LoadFailedMessage))
      case NoData => Success(Report(row, [], Analyse([])))
      case CardRows(cards) => Success(Report(row, cards, Analyse(cards)))
  }

  /** Loaded from the tables: a set found for its owner yields a report of
      all of that set's cards, in `order_index` order; a set that is missing
      or owned by someone else yields the not-found error. */
  lemma LoadFromTables(sets: seq<FlashcardSet>, table: seq<Flashcard>, id: string, userId: string)
    requires UniqueSetIds(sets)
    ensures var r := Load(SelectOwnedSet(sets, id, userId), CardRows(SelectCards(table, id)));
      && (r.Success? <==> exists i :: 0 <= i < |sets| && OwnedMatch(sets[i], id, userId))
      && (r.Failure? ==> r.error == NotFoundMessage)
      && (r.Success? ==>
            && SortedByIndex(r.value.cards)
            && multiset(r.value.cards) == multiset(CardsOf(table, id))
            && r.value.figures.totalCards == |CardsOf(table, id)|)
  {
    SelectOwnedSetFinds(sets, id, userId);
    var cards := SelectCards(table, id);
    assert |cards| == |multiset(cards)| == |multiset(CardsOf(table, id))| == |CardsOf(table, id)|;
  }
}

=== FILE: dashboard.dfy ===
/** The dashboard: the user's sets split into current and past ones, the
    summary figures, and the list updates after a set is created or
    deleted. */
module Dashboard {
  import opened Results
  import opened Types
  import opened Store
  import Lists
  import Rounding

  predicate IsCurrent(x: FlashcardSet) { !x.completed }
  predicate IsPast(x: FlashcardSet) { x.completed }

  /** The sets shown under the "current" tab: those not completed. */
  function Current(sets: seq<FlashcardSet>): (r: seq<FlashcardSet>)
    ensures forall i :: 0 <= i < |r| ==> r[i] in sets && !r[i].completed
    ensures forall i :: 0 <= i < |sets| && !sets[i].completed ==> sets[i] in r
  {
    Lists.Filter(sets, IsCurrent)
  }

  /** The sets shown under the "past" tab: the completed ones. */
  function Past(sets: seq<FlashcardSet>): (r: seq<FlashcardSet>)
    ensures forall i :: 0 <= i < |r| ==> r[i] in sets && r[i].completed
    ensures forall i :: 0 <= i < |sets| && sets[i].completed ==> sets[i] in r
  {
    Lists.Filter(sets, IsPast)
  }

  /** Every set is on exactly one tab, so the in-progress figure
      `totalSets - completedSets` is the number of current sets. */
  lemma TabsPartition(sets: seq<FlashcardSet>)
    ensures |Current(sets)| + |Past(sets)| == |sets|
    ensures |sets| - |Past(sets)| == |Current(sets)|
  {
    Lists.FilterComplementSizes(sets, IsPast, IsCurrent);
  }

  /** Both tabs keep the list's order: the tabs of a list made of two parts
      are the tabs of the first part followed by those of the second. */
  lemma TabsKeepOrder(a: seq<FlashcardSet>, b: seq<FlashcardSet>)
    ensures Current(a + b) == Current(a) + Current(b)
    ensures Past(a + b) == Past(a) + Past(b)
  {
    Lists.FilterConcat(a, b, IsCurrent);
    Lists.FilterConcat(a, b, IsPast);
  }

  /** The completion percentage on the summary card. */
  function CompletionPercent(sets: seq<FlashcardSet>): (p: nat)
    ensures p <= 100
    ensures |sets| == 0 ==> p == 0
  {
    if |sets| > 0 then
      Rounding.RoundPercentBounded(|Past(sets)|, |sets|);
      Rounding.RoundPercent(|Past(sets)|, |sets|)
    else 0
  }

  /** All sets completed shows 100, none completed shows 0, and the figure is
      the percentage of completed sets rounded to the nearest integer. */
  lemma CompletionPercentMeaning(sets: seq<FlashcardSet>)
    requires |sets| > 0
    ensures (forall i :: 0 <= i < |sets| ==> sets[i].completed) ==> CompletionPercent(sets) == 100
    ensures (forall i :: 0 <= i < |sets| ==> !sets[i].completed) ==> CompletionPercent(sets) == 0
    ensures var exact := 100.0 * |Past(sets)| as real / |sets| as real;
      CompletionPercent(sets) as real - 0.5 <= exact < CompletionPercent(sets) as real + 0.5
  {
    Lists.CountAll(sets, IsPast);
    Lists.CountNone(sets, IsPast);
    Rounding.RoundPercentEnds(|sets|);
    Rounding.RoundPercentIsNearest(|Past(sets)|, |sets|);
  }

  // ---------------------------------------------------------------------
  // List updates

  /** `handleSetCreated`: the new set goes first, the rest keep their order. */
  function SetCreated(sets: seq<FlashcardSet>, newSet: FlashcardSet): (r: seq<FlashcardSet>)
    ensures |r| == |sets| + 1 && r[0] == newSet && r[1..] == sets
  {
    [newSet] + sets
  }

  /** A newly created set, which is never completed, heads the current tab;
      the past tab is unchanged. */
  lemma CreatedSetHeadsCurrent(sets: seq<FlashcardSet>, newSet: FlashcardSet)
    requires !newSet.completed
    ensures Current(SetCreated(sets, newSet)) == [newSet] + Current(sets)
    ensures Past(SetCreated(sets, newSet)) == Past(sets)
  {
    TabsKeepOrder([newSet], sets);
  }

  /** The sets other than `setId`. */
  function Without(sets: seq<FlashcardSet>, setId: string): (r: seq<FlashcardSet>)
    ensures forall i :: 0 <= i < |r| ==> r[i] in sets && r[i].id != setId
    ensures forall i :: 0 <= i < |sets| && sets[i].id != setId ==> sets[i] in r
  {
    Lists.Filter(sets, (x: FlashcardSet) => x.id != setId)
  }

  /** The list after a delete, and the writes issued. */
  datatype Deletion = Deletion(sets: seq<FlashcardSet>, effects: seq<Effect>)

  /** `handleDeleteSet`: nothing happens unless the user confirms; then the
      set is deleted for the signed-in user, and on success every set with
      that id leaves the list while a failure leaves the list as it was. */
  function Delete(sets: seq<FlashcardSet>, setId: string, user: Option<User>,
                  confirmed: bool, deleted: bool): (r: Deletion)
    ensures !confirmed ==> r == Deletion(sets, [])
    ensures confirmed ==> r.effects == [DeleteSet(setId, if user.Some? then Some(user.value.id) else None)]
    ensures confirmed && deleted ==> r.sets == Without(sets, setId)
    ensures confirmed && !deleted ==> r.sets == sets
  {
    if !confirmed then Deletion(sets, [])
    else
      var write := DeleteSet(setId, if user.Some? then Some(user.value.id) else None);
      if deleted then Deletion(Without(sets, setId), [write]) else Deletion(sets, [write])
  }

  /** Removing an id that no set carries keeps the list as it is. */
  lemma WithoutAbsent(sets: seq<FlashcardSet>, setId: string)
    requires forall i :: 0 <= i < |sets| ==> sets[i].id != setId
    ensures Without(sets, setId) == sets
  {
    Lists.FilterKeepsAll(sets, (x: FlashcardSet) => x.id != setId);
  }

  /** Deleting a set just created, whose id is new, restores the list. */
  lemma DeleteUndoesCreate(sets: seq<FlashcardSet>, newSet: FlashcardSet, user: Option<User>)
    requires forall i :: 0 <= i < |sets| ==> sets[i].id != newSet.id
    ensures Delete(SetCreated(sets, newSet), newSet.id, user, true, true).sets == sets
  {
    var p := (x: FlashcardSet) => x.id != newSet.id;
    Lists.FilterConcat([newSet], sets, p);
    WithoutAbsent(sets, newSet.id);
  }

  /** A successful delete keeps the other sets in their order: deleting
      from a list in two parts deletes from each part. */
  lemma DeleteKeepsOrder(a: seq<FlashcardSet>, b: seq<FlashcardSet>, setId: string)
    ensures Without(a + b, setId) == Without(a, setId) + Without(b, setId)
  {
    Lists.FilterConcat(a, b, (x: FlashcardSet) => x.id != setId);
  }

  // ---------------------------------------------------------------------
  // Loading

  const LoadFailedMessage := "Çalışma setleri yüklenemedi"

  /** The outcome of the query for the user's sets, newest first. */
  datatype SetsQuery = SetsRows(rows: seq<FlashcardSet>) | SetsNoData | SetsQueryFailed(error: Thrown)

  /** What the page holds: the sets and the error shown, if any. */
  datatype Listing = Listing(sets: seq<FlashcardSet>, error: Option<string>)

  /** `fetchFlashcardSets` from `prev`: without a user nothing is fetched;
      rows (or no data, read as none) replace the list and clear the error;
      a failure keeps the list and sets the error. */
  function LoadSets(prev: Listing, user: Option<User>, query: SetsQuery): (r: Listing)
    ensures user.None? ==> r == prev
    ensures user.Some? && query.SetsRows? ==> r == Listing(query.rows, None)
    ensures user.Some? && query.SetsNoData? ==> r == Listing([], None)
    ensures user.Some? && query.SetsQueryFailed? ==>
      r.sets == prev.sets && r.error == Some(MessageOr(query.error, LoadFailedMessage))
  {
    if user.None? then prev
    else
      match query
      case SetsRows(rows) => Listing(rows, None)
      case SetsNoData => Listing([], None)
      case SetsQueryFailed(e) => Listing(prev.sets, Some(MessageOr(e, LoadFailedMessage)))
  }

  /** A failed reload leaves both tabs as the last successful load showed
      them, and shows the error. */
  lemma FailedReloadKeepsTabs(prev: Listing, user: User, rows: seq<FlashcardSet>, e: Thrown)
    ensures var r := LoadSets(LoadSets(prev, Some(user), SetsRows(rows)), Some(user), SetsQueryFailed(e));
      && Current(r.sets) == Current(rows)
      && Past(r.sets) == Past(rows)
      && r.error.Some?
  {
  }

  /** Loading twice with the same outcome is loading once, and a successful
      load does not depend on what the page held before. */
  lemma LoadSetsIdempotent(prev: Listing, other: Listing, user: Option<User>, query: SetsQuery)
    ensures LoadSets(LoadSets(prev, user, query), user, query) == LoadSets(prev, user, query)
    ensures user.Some? && !query.SetsQueryFailed? ==> LoadSets(prev, user, query) == LoadSets(other, user, query)
  {
  }

  /** The listing after a run of fetches, applied in order. */
  function LoadRun(prev: Listing, user: Option<User>, queries: seq<SetsQuery>): Listing
    decreases |queries|
  {
    if |queries| == 0 then prev
    else LoadSets(LoadRun(prev, user, queries[..|queries| - 1]), user, queries[|queries| - 1])
  }

  /** After any run of fetches, the page holds what the last fetch that did
      not fail returned, whatever failures came after it; the error is clear
      exactly when that fetch was the last one. */
  lemma {:induction false} LoadRunKeepsLastGood(prev: Listing, user: User, queries: seq<SetsQuery>, k: nat)
    requires k < |queries| && !queries[k].SetsQueryFailed?
    requires forall j :: k < j < |queries| ==> queries[j].SetsQueryFailed?
    ensures LoadRun(prev, Some(user), queries).sets == (if queries[k].SetsRows? then queries[k].rows else [])
    ensures LoadRun(prev, Some(user), queries).error.None? <==> k == |queries| - 1
    decreases |queries|
  {
    var n := |queries| - 1;
    if k < n {
      var front := queries[..n];
      assert front[k] == queries[k];
      assert forall j :: k < j < |front| ==> front[j] == queries[j];
      LoadRunKeepsLastGood(prev, user, front, k);
    }
  }
}

=== FILE: generator.dfy ===
/** The card generator client: the two requests sent to the completion API,
    the extraction of a JSON array from the reply text, the normalisation of
    the parsed items, and the way every failure is collapsed into one
    message per request kind. The HTTP exchange and `JSON.parse` are inputs
    (a `Reply` and a `parse` function); the fixed prose of the prompts is
    not modelled, only the parameters that go into them and the numbered
    list of difficult cards. */
module Generator {
  import opened Results
  import opened Strings
  import Js
  import opened Types

  // ---------------------------------------------------------------------
  // Fenced-block extraction

  /** A code fence "```" starts at index `i` of `s`. */
  predicate IsFenceAt(s: string, i: int) {
    0 <= i && i + 3 <= |s| && s[i] == '`' && s[i + 1] == '`' && s[i + 2] == '`'
  }

  /** `s` contains no code fence. */
  predicate FenceFree(s: string) {
    forall k :: 0 <= k <= |s| - 3 ==> !IsFenceAt(s, k)
  }

  /** The tag "json" starts at index `i` of `s`. */
  predicate HasJsonTag(s: string, i: nat) {
    i + 4 <= |s| && s[i..i + 4] == "json"
  }

  /** The first fence of `s` at or after `from`. */
  function FirstFence(s: string, from: nat): (r: Option<nat>)
    ensures r.Some? ==> from <= r.value && IsFenceAt(s, r.value)
    ensures r.Some? ==> forall k :: from <= k < r.value ==> !IsFenceAt(s, k)
    ensures r.None? ==> forall k :: from <= k ==> !IsFenceAt(s, k)
    decreases |s| - from
  {
    if from + 3 > |s| then None
    else if IsFenceAt(s, from) then Some(from)
    else FirstFence(s, from + 1)
  }

  /** The first fence at or after `from` is `c` when there is a fence at `c`
      and none between `from` and `c`. */
  lemma FirstFenceIs(s: string, from: nat, c: nat)
    requires from <= c && IsFenceAt(s, c)
    requires forall k :: from <= k < c ==> !IsFenceAt(s, k)
    ensures FirstFence(s, from) == Some(c)
  {
  }

  /** Where the regular expression /```(?:json)?\s*([\s\S]*?)\s*```/ matches:
      its opening fence, the start of the text after the optional "json" tag,
      and its closing fence. */
  datatype FenceMatch = FenceMatch(open: nat, bodyStart: nat, close: nat)

  /** The leftmost match of the fence pattern. It starts at the first fence
      of `s`, and exists when a second fence follows at least three
      characters later; the lazy capture ends at the first such fence. */
  function MatchFence(s: string): (r: Option<FenceMatch>)
    ensures r.Some? ==>
      && FirstFence(s, 0) == Some(r.value.open)
      && FirstFence(s, r.value.open + 3) == Some(r.value.close)
      && r.value.bodyStart == r.value.open + 3 + (if HasJsonTag(s, r.value.open + 3) then 4 else 0)
      && r.value.bodyStart <= r.value.close
    ensures r.None? ==> forall i, j :: IsFenceAt(s, i) && IsFenceAt(s, j) ==> j < i + 3
  {
    match FirstFence(s, 0)
    case None => None
    case Some(p) =>
      match FirstFence(s, p + 3)
      case None => None
      case Some(q) =>
        var tag := HasJsonTag(s, p + 3);
        if tag then
          // A fence cannot begin on one of the letters of "json".
          assert forall k :: p + 3 <= k < p + 7 ==> !IsFenceAt(s, k) by {
            var tagText := s[p + 3..p + 7];
            assert tagText == "json";
            assert forall k :: p + 3 <= k < p + 7 ==> s[k] == tagText[k - (p + 3)];
            NoFenceWithoutBacktick(s, p + 3, p + 7);
          }
          Some(FenceMatch(p, p + 7, q))
        else
          Some(FenceMatch(p, p + 3, q))
  }

  /** A slice of a fence-free text is fence-free. */
  lemma FenceFreeSlice(s: string, i: nat, j: nat)
    requires i <= j <= |s|
    requires forall k :: i <= k <= j - 3 ==> !IsFenceAt(s, k)
    ensures FenceFree(s[i..j])
  {
    forall k | 0 <= k <= |s[i..j]| - 3
      ensures !IsFenceAt(s[i..j], k)
    {
      SliceOfSlice(s, i, j, k, k + 3);
      assert !IsFenceAt(s, i + k);
    }
  }

  /** A slice of a slice is a slice of the whole. */
  lemma SliceOfSlice(s: string, i: nat, j: nat, a: nat, b: nat)
    requires i <= j <= |s| && a <= b <= j - i
    ensures s[i..j][a..b] == s[i + a..i + b]
  {
    assert forall k :: 0 <= k < b - a ==> s[i..j][a..b][k] == s[i + a + k];
  }

  /** No fence starts in a stretch of text free of backticks. */
  lemma NoFenceWithoutBacktick(s: string, lo: nat, hi: nat)
    requires hi <= |s|
    requires forall k :: lo <= k < hi ==> s[k] != '`'
    ensures forall k :: lo <= k < hi ==> !IsFenceAt(s, k)
  {
    forall k | lo <= k < hi && k + 3 <= |s|
      ensures !IsFenceAt(s, k)
    {
      assert s[k..k + 3][0] == s[k];
    }
  }

  /** Trimming a fence-free text keeps it fence-free. */
  lemma FenceFreeTrim(s: string)
    requires FenceFree(s)
    ensures FenceFree(Trim(s))
  {
    var t := TrimStart(s);
    assert t == s[|s| - |t|..|s|];
    FenceFreeSlice(s, |s| - |t|, |s|);
    var u := TrimEnd(t);
    assert u == t[0..|u|];
    FenceFreeSlice(t, 0, |u|);
  }

  /** `extractJsonFromMarkdown`: the trimmed body of the leftmost fenced
      block, or the whole text trimmed when there is no fenced block. */
  function ExtractJson(s: string): (r: string)
    ensures Trimmed(r)
    ensures MatchFence(s).None? ==> r == Trim(s)
    ensures MatchFence(s).Some? ==> FenceFree(r)
    ensures MatchFence(s).Some? ==> r == Trim(s[MatchFence(s).value.bodyStart..MatchFence(s).value.close])
  {
    match MatchFence(s)
    case None => Trim(s)
    case Some(m) =>
      var body := s[m.bodyStart..m.close];
      FenceFreeSlice(s, m.bodyStart, m.close);
      FenceFreeTrim(body);
      Trim(body)
  }

  /** `x` occurs in `s` at index `i`. */
  lemma SliceAt(s: string, i: nat, x: string)
    requires i + |x| <= |s|
    requires forall k :: 0 <= k < |x| ==> s[i + k] == x[k]
    ensures s[i..i + |x|] == x
  {
    assert forall k :: 0 <= k < |x| ==> s[i..i + |x|][k] == x[k];
  }

  /** The two parts of `x + y` as slices of it. */
  lemma ConcatSlices(x: string, y: string)
    ensures (x + y)[..|x|] == x && (x + y)[|x|..] == y
  {
  }

  /** A slice of a prefix is the same slice of the whole. */
  lemma SliceOfPrefix(s: string, x: string, i: nat, j: nat)
    requires |x| <= |s| && s[..|x|] == x && i <= j <= |x|
    ensures s[i..j] == x[i..j]
  {
    assert forall k :: i <= k < j ==> s[k] == s[..|x|][k];
  }

  /** No fence starts inside a stretch `x` of `s` without backticks. */
  lemma NoFenceInStretch(s: string, lo: nat, x: string)
    requires lo + |x| <= |s| && s[lo..lo + |x|] == x && '`' !in x
    ensures forall k :: lo <= k < lo + |x| ==> !IsFenceAt(s, k)
  {
    assert forall k :: lo <= k < lo + |x| ==> s[k] == s[lo..lo + |x|][k - lo];
    NoFenceWithoutBacktick(s, lo, lo + |x|);
  }

  /** The four parts of pre + "```" + inner + "```" + post as its slices. */
  lemma BlockParts(pre: string, inner: string, post: string)
    ensures var s := pre + "```" + inner + "```" + post;
      var p := |pre|;
      var c := p + 3 + |inner|;
      && c + 3 <= |s|
      && s[..p] == pre
      && s[p..p + 3] == "```"
      && s[p + 3..c] == inner
      && s[c..c + 3] == "```"
  {
    var a := pre + "```";
    var b := a + inner;
    var c := b + "```";
    var s := c + post;
    ConcatSlices(c, post);
    ConcatSlices(b, "```");
    ConcatSlices(a, inner);
    ConcatSlices(pre, "```");
    SliceOfPrefix(s, c, 0, |b|);
    SliceOfPrefix(s, b, 0, |a|);
    SliceOfPrefix(s, a, 0, |pre|);
    SliceOfPrefix(s, a, |pre|, |a|);
    SliceOfPrefix(s, b, |a|, |b|);
    SliceOfPrefix(s, c, |b|, |c|);
    assert c[|b|..|c|] == c[|b|..];
    assert a[|pre|..|a|] == a[|pre|..];
  }

  /** In pre + "```" + inner + "```" + post with no backtick in `pre` or
      `inner`, the first fence opens right after `pre` and the first fence
      after it closes right after `inner`, whatever `post` holds. */
  lemma FencesOfBlock(pre: string, inner: string, post: string)
    requires '`' !in pre && '`' !in inner
    ensures FirstFence(pre + "```" + inner + "```" + post, 0) == Some(|pre|)
    ensures FirstFence(pre + "```" + inner + "```" + post, |pre| + 3) == Some(|pre| + 3 + |inner|)
  {
    var s := pre + "```" + inner + "```" + post;
    var p := |pre|;
    BlockParts(pre, inner, post);
    NoFenceInStretch(s, 0, pre);
    FirstFenceIs(s, 0, p);
    NoFenceInStretch(s, p + 3, inner);
    FirstFenceIs(s, p + 3, p + 3 + |inner|);
  }

  /** The pattern sees a "json" tag after the opening fence exactly when
      the block was written with one. */
  lemma TagOfBlock(pre: string, tag: bool, body: string, post: string)
    requires !tag ==> !(|body| >= 4 && body[..4] == "json")
    ensures HasJsonTag(pre + "```" + ((if tag then "json" else "") + body) + "```" + post, |pre| + 3) == tag
  {
    var t := if tag then "json" else "";
    var inner := t + body;
    var s := pre + "```" + inner + "```" + post;
    var p := |pre|;
    var c := p + 3 + |inner|;
    BlockParts(pre, inner, post);
    if tag || |body| >= 4 {
      SliceOfSlice(s, p + 3, c, 0, 4);
      assert s[p + 3..p + 7] == inner[..4];
      if tag {
        ConcatSlices(t, body);
      } else {
        assert inner == body;
      }
    } else {
      assert s[c] == s[c..c + 3][0] == '`';
      if p + 7 <= |s| {
        assert s[p + 3..p + 7][|body|] == s[c];
      }
    }
  }

  /** Once the match is known and its capture is `body`, the extraction is
      `body` trimmed. */
  lemma ExtractAt(s: string, m: FenceMatch, body: string)
    requires MatchFence(s) == Some(m)
    requires s[m.bodyStart..m.close] == body
    ensures ExtractJson(s) == Trim(body)
  {
  }

  /** Between the tag and the closing fence lies the body. */
  lemma BodyOfBlock(pre: string, t: string, body: string, post: string)
    ensures (pre + "```" + (t + body) + "```" + post)[|pre| + 3 + |t|..|pre| + 3 + |t| + |body|] == body
  {
    var inner := t + body;
    var s := pre + "```" + inner + "```" + post;
    var p := |pre|;
    var c := p + 3 + |inner|;
    BlockParts(pre, inner, post);
    assert s[p + 3 + |t|..c] == s[p + 3..c][|t|..] == inner[|t|..] == body;
  }

  /** The match found from the first two fences and the tag after the
      first. */
  lemma MatchFenceAt(s: string, p: nat, c: nat, tag: bool)
    requires FirstFence(s, 0) == Some(p) && FirstFence(s, p + 3) == Some(c)
    requires HasJsonTag(s, p + 3) == tag
    ensures MatchFence(s) == Some(FenceMatch(p, p + 3 + (if tag then 4 else 0), c))
  {
  }

  /** Where the pattern matches in a reply holding a fenced block after
      text with no backtick. */
  lemma BlockMatch(pre: string, tag: bool, body: string, post: string)
    requires '`' !in pre && '`' !in body
    requires !tag ==> !(|body| >= 4 && body[..4] == "json")
    ensures MatchFence(pre + "```" + ((if tag then "json" else "") + body) + "```" + post)
      == Some(FenceMatch(|pre|, |pre| + 3 + (if tag then 4 else 0), |pre| + 3 + (if tag then 4 else 0) + |body|))
  {
    var t := if tag then "json" else "";
    var inner := t + body;
    assert '`' !in inner;
    FencesOfBlock(pre, inner, post);
    TagOfBlock(pre, tag, body, post);
    MatchFenceAt(pre + "```" + inner + "```" + post, |pre|, |pre| + 3 + |inner|, tag);
  }

  /** A reply holding a fenced block, tagged "json" or not, after text with
      no backtick gives back the block's trimmed body, whatever follows the
      block (a second block included). An untagged body must not itself
      start with "json", which the pattern would take for the tag. */
  lemma ExtractLeftmost(pre: string, tag: bool, body: string, post: string)
    requires '`' !in pre && '`' !in body
    requires !tag ==> !(|body| >= 4 && body[..4] == "json")
    ensures ExtractJson(pre + "```" + ((if tag then "json" else "") + body) + "```" + post) == Trim(body)
  {
    var t := if tag then "json" else "";
    var start := |pre| + 3 + |t|;
    BlockMatch(pre, tag, body, post);
    BodyOfBlock(pre, t, body, post);
    ExtractAt(pre + "```" + (t + body) + "```" + post, FenceMatch(|pre|, start, start + |body|), body);
  }

  // ---------------------------------------------------------------------
  // Normalising the parsed items

  /** One parsed item as `{ content: card.content, explanation:
      card.explanation || null }`; `None` is the `TypeError` raised when the
      item is `null`. The content is kept as it is; the explanation is kept
      when truthy, and a falsy or missing one becomes `null`. */
  function NormaliseItem(card: Js.Value): (r: Option<FlashcardContent>)
    ensures r.None? <==> card.Null? || card.Undefined?
    ensures r.Some? ==> r.value.content == Js.Get(card, "content").value
    ensures r.Some? && Js.Truthy(Js.Get(card, "explanation").value) ==>
      r.value.explanation == Js.Get(card, "explanation").value
    ensures r.Some? && !Js.Truthy(Js.Get(card, "explanation").value) ==>
      r.value.explanation == Js.Null
    ensures r.Some? ==> r.value.explanation.Null? || Js.Truthy(r.value.explanation)
  {
    match Js.Get(card, "content")
    case None => None
    case Some(content) =>
      var explanation := Js.Get(card, "explanation").value;
      Some(FlashcardContent(content, if Js.Truthy(explanation) then explanation else Js.Null))
  }

  /** An item without an explanation, as the card prompt asks for, gets a
      `null` explanation and keeps its content. */
  lemma MissingExplanationIsNull(fields: map<string, Js.Value>)
    requires "explanation" !in fields
    ensures NormaliseItem(Js.Obj(fields)) ==
      Some(FlashcardContent(if "content" in fields then fields["content"] else Js.Undefined, Js.Null))
  {
  }

  /** `flashcards.map(...)`: `None` when the parsed value is not an array
      or one of its items is `null`. The result has exactly as many items
      as the parsed array, whatever count was asked for. */
  function Normalise(parsed: Js.Value): (r: Option<seq<FlashcardContent>>)
    ensures r.Some? <==> parsed.Arr? && forall i :: 0 <= i < |parsed.items| ==> NormaliseItem(parsed.items[i]).Some?
    ensures r.Some? ==> |r.value| == |parsed.items|
    ensures r.Some? ==> forall i :: 0 <= i < |r.value| ==> Some(r.value[i]) == NormaliseItem(parsed.items[i])
  {
    match parsed
    case Arr(items) =>
      if forall i :: 0 <= i < |items| ==> NormaliseItem(items[i]).Some? then
        Some(seq(|items|, i requires 0 <= i < |items| => NormaliseItem(items[i]).value))
      else None
    case _ => None
  }

  /** The JSON array a list of generator items would be written as. */
  function Encode(items: seq<FlashcardContent>): Js.Value {
    Js.Arr(seq(|items|, i requires 0 <= i < |items| =>
      Js.Obj(map["content" := items[i].content, "explanation" := items[i].explanation])))
  }

  /** Normalising the array that encodes some items gives the items back,
      provided each explanation is already `null` or truthy. */
  lemma NormaliseEncode(items: seq<FlashcardContent>)
    requires forall i :: 0 <= i < |items| ==> items[i].explanation.Null? || Js.Truthy(items[i].explanation)
    ensures Normalise(Encode(items)) == Some(items)
  {
    var parsed := Encode(items);
    forall i | 0 <= i < |items|
      ensures NormaliseItem(parsed.items[i]) == Some(items[i])
    {
      var m := map["content" := items[i].content, "explanation" := items[i].explanation];
      assert parsed.items[i] == Js.Obj(m);
      assert "content" != "explanation" by { assert "content"[0] != "explanation"[0]; }
      assert Js.Get(Js.Obj(m), "content") == Some(items[i].content);
      assert Js.Get(Js.Obj(m), "explanation") == Some(items[i].explanation);
    }
    var r := Normalise(parsed);
    assert r.Some?;
    assert |r.value| == |items|;
    assert forall i :: 0 <= i < |items| ==> Some(r.value[i]) == Some(items[i]);
    assert r.value == items;
  }

  // ---------------------------------------------------------------------
  // The numbered list of difficult cards

  /** Line `i` (from 0) of the list: "<i+1>. <text>". */
  function NumberedLine(i: nat, text: string): string {
    Decimal(i + 1) + ". " + text
  }

  function NumberedLines(items: seq<string>): (lines: seq<string>)
    ensures |lines| == |items|
    ensures forall i :: 0 <= i < |items| ==> lines[i] == NumberedLine(i, items[i])
  {
    seq(|items|, i requires 0 <= i < |items| => NumberedLine(i, items[i]))
  }

  /** `difficultCards.map((card, index) => `${index + 1}. ${card}`).join('\n')`. */
  function DifficultList(items: seq<string>): string {
    Join(NumberedLines(items), '\n')
  }

  /** The list has one line per difficult card, in order, numbered from 1,
      when no card text itself contains a line break. */
  lemma DifficultListLines(items: seq<string>)
    requires |items| > 0
    requires forall i :: 0 <= i < |items| ==> '\n' !in items[i]
    ensures |Split(DifficultList(items), '\n')| == |items|
    ensures forall i :: 0 <= i < |items| ==>
      Split(DifficultList(items), '\n')[i] == Decimal(i + 1) + ". " + items[i]
  {
    var lines := NumberedLines(items);
    forall i | 0 <= i < |lines|
      ensures '\n' !in lines[i]
    {
      assert '\n' !in Decimal(i + 1);
    }
    SplitJoin(lines, '\n');
  }

  // ---------------------------------------------------------------------
  // Requests and failures

  /** What the two generator functions are asked for. */
  datatype Request =
    | CardsRequest(grade: int, subject: string, topic: string, count: int)
    | ExplanationsRequest(grade: int, subject: string, topic: string, difficult: seq<string>)

  /** The outcome of the HTTP exchange: a transport or status failure, or
      the parsed response body (`response.data`). */
  datatype Reply = TransportFailed | Replied(data: Js.Value)

  /** One generator call: whether a request left the client, and what the
      caller receives. */
  datatype Call = Call(sent: bool, result: Result<seq<FlashcardContent>, string>)

  const KeyMissingMessage := "OpenAI API anahtarı yapılandırılmamış"
  const InvalidFormatMessage := "OpenAI'dan geçersiz yanıt formatı"
  const CardsFailedMessage := "Flashcard'lar oluşturulamadı"
  const ExplanationsFailedMessage := "Açıklayıcı flashcard'lar oluşturulamadı"

  /** The one message a caller sees for any failure after the request. */
  function FailedMessage(req: Request): string {
    if req.CardsRequest? then CardsFailedMessage else ExplanationsFailedMessage
  }

  /** `response.data.choices[0].message.content`; `None` is a `TypeError`. */
  function ReplyContent(data: Js.Value): Option<Js.Value> {
    match Js.Get(data, "choices")
    case None => None
    case Some(choices) =>
      match Js.First(choices)
      case None => None
      case Some(choice) =>
        match Js.Get(choice, "message")
        case None => None
        case Some(message) => Js.Get(message, "content")
  }

  /** The inner `try`: extraction, parsing and normalisation. Any failure
      there becomes the invalid-format error, which the outer `catch`
      replaces in turn. A content that is not a string has no `match`
      method and fails the same way. */
  function ParseReply(content: Js.Value, parse: string -> Option<Js.Value>): (r: Result<seq<FlashcardContent>, string>)
    ensures r.Failure? ==> r.error == InvalidFormatMessage
    ensures r.Success? <==>
      && content.Str? && parse(ExtractJson(content.s)).Some?
      && Normalise(parse(ExtractJson(content.s)).value).Some?
    ensures r.Success? ==> Normalise(parse(ExtractJson(content.s)).value) == Some(r.value)
  {
    if !content.Str? then Failure(InvalidFormatMessage)
    else
      match parse(ExtractJson(content.s))
      case None => Failure(InvalidFormatMessage)
      case Some(parsed) =>
        match Normalise(parsed)
        case None => Failure(InvalidFormatMessage)
        case Some(items) => Success(items)
  }

  /** The reply carries a content that `ParseReply` accepts. */
  predicate WellFormedReply(reply: Reply, parse: string -> Option<Js.Value>) {
    && reply.Replied?
    && ReplyContent(reply.data).Some?
    && ParseReply(ReplyContent(reply.data).value, parse).Success?
  }

  /** The items `ParseReply` makes of a well-formed reply. */
  function ReplyItems(reply: Reply, parse: string -> Option<Js.Value>): seq<FlashcardContent>
    requires WellFormedReply(reply, parse)
  {
    ParseReply(ReplyContent(reply.data).value, parse).value
  }

  /** The reply's content parses to an array of `n` items. */
  predicate RepliedWithArray(reply: Reply, parse: string -> Option<Js.Value>, n: nat) {
    && reply.Replied?
    && ReplyContent(reply.data).Some? && ReplyContent(reply.data).value.Str?
    && var parsed := parse(ExtractJson(ReplyContent(reply.data).value.s));
       parsed.Some? && parsed.value.Arr? && |parsed.value.items| == n
  }

  /** The shared body of `generateFlashcards` and
      `generateExplanatoryFlashcards`. A missing API key throws before any
      request; every later failure, including a parse failure already
      rethrown by the inner `catch`, reaches the caller as the one generic
      message of the request kind. A success holds one item per element of
      the parsed array; the requested count is not checked. */
  function Generate(req: Request, keyConfigured: bool, reply: Reply, parse: string -> Option<Js.Value>): (r: Call)
    ensures r.sent <==> keyConfigured
    ensures !keyConfigured ==> r.result == Failure(KeyMissingMessage)
    ensures keyConfigured && r.result.Failure? ==> r.result.error == FailedMessage(req)
    ensures r.result.Success? <==> keyConfigured && WellFormedReply(reply, parse)
    ensures r.result.Success? ==> r.result.value == ReplyItems(reply, parse)
    ensures r.result.Success? ==> RepliedWithArray(reply, parse, |r.result.value|)
  {
    if !keyConfigured then Call(false, Failure(KeyMissingMessage))
    else
      match reply
      case TransportFailed => Call(true, Failure(FailedMessage(req)))
      case Replied(data) =>
        match ReplyContent(data)
        case None => Call(true, Failure(FailedMessage(req)))
        case Some(content) =>
          match ParseReply(content, parse)
          case Failure(_) => Call(true, Failure(FailedMessage(req)))
          case Success(items) => Call(true, Success(items))
  }

  /** `generateFlashcards(grade, subject, topic, count)`. */
  function GenerateFlashcards(grade: int, subject: string, topic: string, count: int,
                              keyConfigured: bool, reply: Reply, parse: string -> Option<Js.Value>): (r: Call)
    ensures r.result.Failure? ==> r.result.error in {KeyMissingMessage, CardsFailedMessage}
    ensures r.result.Failure? ==> r.result.error != InvalidFormatMessage
    ensures r.result.Success? <==> keyConfigured && WellFormedReply(reply, parse)
    ensures r.result.Success? ==> r.result.value == ReplyItems(reply, parse)
  {
    Generate(CardsRequest(grade, subject, topic, count), keyConfigured, reply, parse)
  }

  /** `generateExplanatoryFlashcards(grade, subject, topic, difficultCards)`. */
  function GenerateExplanatoryFlashcards(grade: int, subject: string, topic: string, difficult: seq<string>,
                                         keyConfigured: bool, reply: Reply, parse: string -> Option<Js.Value>): (r: Call)
    ensures r.result.Failure? ==> r.result.error in {KeyMissingMessage, ExplanationsFailedMessage}
    ensures r.result.Failure? ==> r.result.error != InvalidFormatMessage
    ensures r.result.Success? <==> keyConfigured && WellFormedReply(reply, parse)
    ensures r.result.Success? ==> r.result.value == ReplyItems(reply, parse)
  {
    Generate(ExplanationsRequest(grade, subject, topic, difficult), keyConfigured, reply, parse)
  }

  // ---------------------------------------------------------------------
  // Round trips through a reply

  /** The body of a completion response whose first choice says `text`. */
  function ChatData(text: string): Js.Value {
    Js.Obj(map["choices" := Js.Arr([Js.Obj(map["message" := Js.Obj(map["content" := Js.Str(text)])])])])
  }

  /** `response.data.choices[0].message.content` finds the text again. */
  lemma ChatDataContent(text: string)
    ensures ReplyContent(ChatData(text)) == Some(Js.Str(text))
  {
    var message := Js.Obj(map["content" := Js.Str(text)]);
    var choice := Js.Obj(map["message" := message]);
    assert Js.Get(ChatData(text), "choices") == Some(Js.Arr([choice]));
    assert Js.First(Js.Arr([choice])) == Some(choice);
    assert Js.Get(choice, "message") == Some(message);
  }

  /** A reply text whose extracted part parses to the JSON of some items is
      read back as exactly those items. */
  lemma ParseReplyOf(s: string, items: seq<FlashcardContent>, parse: string -> Option<Js.Value>)
    requires parse(ExtractJson(s)) == Some(Encode(items))
    requires forall i :: 0 <= i < |items| ==> items[i].explanation.Null? || Js.Truthy(items[i].explanation)
    ensures ParseReply(Js.Str(s), parse) == Success(items)
  {
    NormaliseEncode(items);
  }

  /** A reply whose fenced block holds the JSON text of some items, after
      text with no backtick and with anything after the block, is read
      back as exactly those items. */
  lemma ParseReplyRoundTrip(pre: string, tag: bool, txt: string, post: string,
                            items: seq<FlashcardContent>, parse: string -> Option<Js.Value>)
    requires '`' !in pre && '`' !in txt
    requires !tag ==> !(|txt| >= 4 && txt[..4] == "json")
    requires parse(Trim(txt)) == Some(Encode(items))
    requires forall i :: 0 <= i < |items| ==> items[i].explanation.Null? || Js.Truthy(items[i].explanation)
    ensures ParseReply(Js.Str(pre + "```" + ((if tag then "json" else "") + txt) + "```" + post), parse) == Success(items)
  {
    ExtractLeftmost(pre, tag, txt, post);
    ParseReplyOf(pre + "```" + ((if tag then "json" else "") + txt) + "```" + post, items, parse);
  }

  /** With the key configured, a response whose text parses to the JSON
      encoding of some items yields exactly those items, for either kind of
      request. */
  lemma GenerateRoundTrip(req: Request, text: string, items: seq<FlashcardContent>,
                          parse: string -> Option<Js.Value>)
    requires parse(ExtractJson(text)) == Some(Encode(items))
    requires forall i :: 0 <= i < |items| ==> items[i].explanation.Null? || Js.Truthy(items[i].explanation)
    ensures Generate(req, true, Replied(ChatData(text)), parse) == Call(true, Success(items))
  {
    ChatDataContent(text);
    ParseReplyOf(text, items, parse);
  }
}

=== FILE: js.dfy ===
/** The JavaScript values the application receives from `JSON.parse` and
    from the HTTP client, with the two operations it applies to them without
    a type check: property access (`v.key`, `v[0]`) and truthiness (`||`).
    Numbers are exact reals: the model does not follow IEEE doubles. */
module Js {
  import opened Results

  datatype Value =
    | Undefined
    | Null
    | Bool(b: bool)
    | Num(n: real)
    | Str(s: string)
    | Arr(items: seq<Value>)
    | Obj(fields: map<string, Value>)

  /** `!!v`: false for `undefined`, `null`, `false`, `0` and the empty string. */
  predicate Truthy(v: Value) {
    match v
    case Undefined => false
    case Null => false
    case Bool(b) => b
    case Num(n) => n != 0.0
    case Str(s) => s != ""
    case Arr(_) => true
    case Obj(_) => true
  }

  /** `v.key` for a key that names no built-in property of strings, arrays
      or numbers. `None` is the `TypeError` thrown on `null` and `undefined`. */
  function Get(v: Value, key: string): (r: Option<Value>)
    ensures r.None? <==> v.Undefined? || v.Null?
    ensures v.Obj? && key in v.fields ==> r == Some(v.fields[key])
    ensures v.Obj? && key !in v.fields ==> r == Some(Undefined)
  {
    match v
    case Undefined => None
    case Null => None
    case Obj(m) => Some(if key in m then m[key] else Undefined)
    case _ => Some(Undefined)
  }

  /** `v[0]`: the first element of an array, the first character of a
      string, the property "0" of an object. */
  function First(v: Value): (r: Option<Value>)
    ensures r.None? <==> v.Undefined? || v.Null?
    ensures v.Arr? && |v.items| > 0 ==> r == Some(v.items[0])
  {
    match v
    case Undefined => None
    case Null => None
    case Arr(items) => Some(if |items| > 0 then items[0] else Undefined)
    case Str(s) => Some(if |s| > 0 then Str([s[0]]) else Undefined)
    case Obj(m) => Some(if "0" in m then m["0"] else Undefined)
    case _ => Some(Undefined)
  }
}

=== FILE: lists.dfy ===
/** `Array.prototype.filter` and the counts the pages derive from it. */
module Lists {

  /** The elements of `s` satisfying `p`, in their original order. */
  function Filter<T>(s: seq<T>, p: T -> bool): (r: seq<T>)
    ensures |r| <= |s|
    ensures forall i :: 0 <= i < |r| ==> p(r[i]) && r[i] in s
    ensures forall i :: 0 <= i < |s| && p(s[i]) ==> s[i] in r
  {
    if |s| == 0 then []
    else (if p(s[0]) then [s[0]] else []) + Filter(s[1..], p)
  }

  /** Filtering a concatenation filters each part in turn: the relative order
      of the kept elements is the order they had in the input. */
  lemma {:induction false} FilterConcat<T>(a: seq<T>, b: seq<T>, p: T -> bool)
    ensures Filter(a + b, p) == Filter(a, p) + Filter(b, p)
    decreases |a|
  {
    if |a| == 0 {
      assert a + b == b;
    } else {
      assert (a + b)[1..] == a[1..] + b;
      FilterConcat(a[1..], b, p);
    }
  }

  /** Filtering by a predicate and by its negation splits the input: the
      two results together are as long as the input. */
  lemma {:induction false} FilterComplementSizes<T>(s: seq<T>, p: T -> bool, q: T -> bool)
    requires forall x :: q(x) == !p(x)
    ensures |Filter(s, p)| + |Filter(s, q)| == |s|
  {
    if |s| > 0 {
      FilterComplementSizes(s[1..], p, q);
    }
  }

  /** Nothing is dropped exactly when every element satisfies `p`. */
  lemma {:induction false} FilterKeepsAll<T>(s: seq<T>, p: T -> bool)
    ensures Filter(s, p) == s <==> forall i :: 0 <= i < |s| ==> p(s[i])
  {
    if |s| > 0 && forall i :: 0 <= i < |s| ==> p(s[i]) {
      assert forall i :: 0 <= i < |s[1..]| ==> s[1..][i] == s[i + 1];
      FilterKeepsAll(s[1..], p);
      assert s == [s[0]] + s[1..];
    }
  }

  /** How many elements satisfy `p`: `s.filter(p).length`. */
  function Count<T>(s: seq<T>, p: T -> bool): (n: nat)
    ensures n <= |s|
  {
    |Filter(s, p)|
  }

  /** Every element is counted exactly when every element satisfies `p`. */
  lemma {:induction false} CountAll<T>(s: seq<T>, p: T -> bool)
    ensures Count(s, p) == |s| <==> forall i :: 0 <= i < |s| ==> p(s[i])
  {
    if |s| > 0 {
      CountAll(s[1..], p);
      assert forall i :: 1 <= i < |s| ==> s[i] == s[1..][i - 1];
      if !p(s[0]) {
        assert Filter(s, p) == Filter(s[1..], p);
      }
    }
  }

  /** Nothing is counted exactly when no element satisfies `p`. */
  lemma CountNone<T>(s: seq<T>, p: T -> bool)
    ensures Count(s, p) == 0 <==> forall i :: 0 <= i < |s| ==> !p(s[i])
  {
    if Count(s, p) > 0 {
      assert Filter(s, p)[0] in s;
    }
  }

  /** Two predicates that agree on every element filter alike. */
  lemma {:induction false} FilterAgree<T>(s: seq<T>, p: T -> bool, q: T -> bool)
    requires forall i :: 0 <= i < |s| ==> p(s[i]) == q(s[i])
    ensures Filter(s, p) == Filter(s, q)
  {
    if |s| > 0 {
      assert forall i :: 0 <= i < |s[1..]| ==> s[1..][i] == s[i + 1];
      FilterAgree(s[1..], p, q);
    }
  }
}

=== FILE: results.dfy ===
/** Optional values and success-or-error outcomes, used wherever the
    application either returns a value or throws an `Error` with a message. */
module Results {

  /** A value that may be absent (`null` in the application). */
  datatype Option<+T> = None | Some(value: T)

  /** The outcome of an operation that can fail with a value of type `E`. */
  datatype Result<+R, +E> = Success(value: R) | Failure(error: E)
}

=== FILE: rounding.dfy ===
/** Integer model of `Math.round((part / whole) * 100)`, the percentage the
    pages display. `Math.round` rounds half-way values up, so the result is
    the integer nearest to 100·part/whole with ties going up; the model
    computes it exactly as ⌊(200·part + whole) / (2·whole)⌋. */
module Rounding {

  /** The displayed percentage for `part` out of `whole`. */
  function RoundPercent(part: nat, whole: nat): (r: nat)
    requires whole > 0
    // r - 1/2 <= 100·part/whole < r + 1/2, multiplied through by 2·whole
    ensures 2 * whole * r <= 200 * part + whole < 2 * whole * r + 2 * whole
  {
    (200 * part + whole) / (2 * whole)
  }

  /** Multiplying by a positive factor preserves strict order, so it can be
      cancelled. */
  lemma CancelLess(k: int, a: int, b: int)
    requires k > 0 && k * a < k * b
    ensures a < b
  {
  }

  lemma CancelLessReal(k: real, a: real, b: real)
    requires k > 0.0 && k * a < k * b
    ensures a < b
  {
  }

  lemma CancelAtMostReal(k: real, a: real, b: real)
    requires k > 0.0 && k * a <= k * b
    ensures a <= b
  {
  }

  lemma LowerHalf(w: real, r: real, p: real, e: real)
    requires w > 0.0 && e * w == 100.0 * p && 2.0 * w * r <= 200.0 * p + w
    ensures r - 0.5 <= e
  {
    assert (2.0 * w) * e == 2.0 * (e * w) == 200.0 * p;
    assert (2.0 * w) * (r - 0.5) == 2.0 * w * r - w;
    CancelAtMostReal(2.0 * w, r - 0.5, e);
  }

  lemma UpperHalf(w: real, r: real, p: real, e: real)
    requires w > 0.0 && e * w == 100.0 * p && 200.0 * p + w < 2.0 * w * r + 2.0 * w
    ensures e < r + 0.5
  {
    assert (2.0 * w) * e == 2.0 * (e * w) == 200.0 * p;
    assert (2.0 * w) * (r + 0.5) == 2.0 * w * r + w;
    CancelLessReal(2.0 * w, e, r + 0.5);
  }

  /** The nearest-integer reading of `RoundPercent`, stated over the reals. */
  lemma RoundPercentIsNearest(part: nat, whole: nat)
    requires whole > 0
    ensures var exact := 100.0 * part as real / whole as real;
      && RoundPercent(part, whole) as real - 0.5 <= exact
      && exact < RoundPercent(part, whole) as real + 0.5
  {
    var n := RoundPercent(part, whole);
    var r := n as real;
    var w := whole as real;
    var p := part as real;
    var exact := 100.0 * p / w;
    assert 2 * whole * n <= 200 * part + whole < 2 * whole * n + 2 * whole;
    assert (2 * whole * n) as real == 2.0 * w * r;
    assert (200 * part + whole) as real == 200.0 * p + w;
    assert exact * w == 100.0 * p;
    LowerHalf(w, r, p, exact);
    UpperHalf(w, r, p, exact);
  }

  /** A share of a whole is shown between 0 and 100. */
  lemma RoundPercentBounded(part: nat, whole: nat)
    requires whole > 0 && part <= whole
    ensures RoundPercent(part, whole) <= 100
  {
    var r := RoundPercent(part, whole);
    assert 2 * whole * r < 2 * whole * 101;
    CancelLess(2 * whole, r, 101);
  }

  /** The whole is shown as 100 and nothing as 0. */
  lemma RoundPercentEnds(whole: nat)
    requires whole > 0
    ensures RoundPercent(whole, whole) == 100
    ensures RoundPercent(0, whole) == 0
  {
    var r := RoundPercent(whole, whole);
    assert 2 * whole * r < 2 * whole * 101;
    CancelLess(2 * whole, r, 101);
    assert 2 * whole * 99 < 2 * whole * (r + 1);
    CancelLess(2 * whole, 99, r + 1);
    var z := RoundPercent(0, whole);
    assert 2 * whole * z < 2 * whole * 1;
    CancelLess(2 * whole, z, 1);
  }

  /** More of the same whole is never shown as less. */
  lemma RoundPercentMonotonic(a: nat, b: nat, whole: nat)
    requires whole > 0 && a <= b
    ensures RoundPercent(a, whole) <= RoundPercent(b, whole)
  {
    var ra := RoundPercent(a, whole);
    var rb := RoundPercent(b, whole);
    assert 2 * whole * ra < 2 * whole * (rb + 1);
    CancelLess(2 * whole, ra, rb + 1);
  }
}

=== FILE: store.dfy ===
/** The hosted database as the pages see it: the outcomes of the queries
    they issue, the semantics of the two reads the study and analysis pages
    share (one owned set by id, a set's cards by `order_index`), and the
    writes and generator requests a handler emits. A write is recorded as an
    `Effect` and nothing reads its result back. */
module Store {
  import opened Results
  import opened Types
  import Generator
  import Lists

  /** A value caught in a `catch`: an `Error` instance carrying a message,
      or some other value. */
  datatype Thrown = ErrorInstance(message: string) | OtherValue

  /** `error instanceof Error ? error.message : fallback`. */
  function MessageOr(e: Thrown, fallback: string): (m: string)
    ensures e.ErrorInstance? ==> m == e.message
    ensures e.OtherValue? ==> m == fallback
  {
    match e
    case ErrorInstance(message) => message
    case OtherValue => fallback
  }

  /** The fallback matters exactly when the thrown value is not an `Error`:
      two fallbacks give the same message iff an `Error` was thrown or the
      fallbacks agree. */
  lemma MessageOrIgnoresFallback(e: Thrown, f: string, g: string)
    ensures MessageOr(e, f) == MessageOr(e, g) <==> e.ErrorInstance? || f == g
    ensures MessageOr(e, f) != f ==> e.ErrorInstance?
  {
  }

  /** The outcome of `.select('*').eq('id', id).eq('user_id', user).single()`:
      the row, the "not exactly one row" error (code PGRST116), or another
      failure. */
  datatype SetQuery = SetRow(row: FlashcardSet) | NoSingleRow | SetQueryFailed(error: Thrown)

  /** The outcome of a card query: the rows, no data at all (`null`, read
      as no cards), or a failure. */
  datatype CardsQuery = CardRows(cards: seq<Flashcard>) | NoData | CardsQueryFailed(error: Thrown)

  /** The writes and generator requests the pages issue. */
  datatype Effect =
    | UpdateFlags(cardId: string, understood: bool, needsReview: bool)
    | InsertSet(userId: string, grade: int, subject: string, topic: string)
    | InsertCards(rows: seq<CardRow>)
    | MarkSetCompleted(setId: string)
    | DeleteSet(setId: string, owner: Option<string>)
    | RequestGeneration(request: Generator.Request)

  predicate UniqueSetIds(table: seq<FlashcardSet>) {
    forall i, j :: 0 <= i < j < |table| ==> table[i].id != table[j].id
  }

  /** Does the row have this id and this owner? */
  predicate OwnedMatch(x: FlashcardSet, id: string, userId: string) {
    x.id == id && x.userId == userId
  }

  /** The single-row lookup of an owned set on a snapshot of the table. */
  function SelectOwnedSet(table: seq<FlashcardSet>, id: string, userId: string): (r: SetQuery)
    ensures r.SetRow? ==> r.row in table && OwnedMatch(r.row, id, userId)
    ensures !r.SetQueryFailed?
  {
    var matches := Lists.Filter(table, x => OwnedMatch(x, id, userId));
    if |matches| == 1 then SetRow(matches[0]) else NoSingleRow
  }

  /** With unique ids there is at most one owned match, and it is found. */
  lemma {:induction false} UniqueOwnedMatch(table: seq<FlashcardSet>, id: string, userId: string)
    requires UniqueSetIds(table)
    ensures |Lists.Filter(table, x => OwnedMatch(x, id, userId))| ==
      (if exists i :: 0 <= i < |table| && OwnedMatch(table[i], id, userId) then 1 else 0)
  {
    var p := x => OwnedMatch(x, id, userId);
    if |table| > 0 {
      var rest := Lists.Filter(table[1..], p);
      assert UniqueSetIds(table[1..]) by {
        forall i, j | 0 <= i < j < |table[1..]|
          ensures table[1..][i].id != table[1..][j].id
        {
          assert table[1..][i] == table[i + 1] && table[1..][j] == table[j + 1];
        }
      }
      UniqueOwnedMatch(table[1..], id, userId);
      if p(table[0]) {
        assert forall k :: 0 <= k < |table[1..]| ==> !p(table[1..][k]) by {
          forall k | 0 <= k < |table[1..]|
            ensures !p(table[1..][k])
          {
            assert table[1..][k] == table[k + 1];
          }
        }
      } else {
        if exists i :: 0 <= i < |table| && OwnedMatch(table[i], id, userId) {
          var i :| 0 <= i < |table| && OwnedMatch(table[i], id, userId);
          assert table[1..][i - 1] == table[i];
        }
      }
    }
  }

  /** The set lookup finds the set exactly when a row with that id belongs
      to that user: a missing set and a set owned by someone else are both
      "not found". */
  lemma SelectOwnedSetFinds(table: seq<FlashcardSet>, id: string, userId: string)
    requires UniqueSetIds(table)
    ensures SelectOwnedSet(table, id, userId).SetRow? <==>
      exists i :: 0 <= i < |table| && OwnedMatch(table[i], id, userId)
  {
    UniqueOwnedMatch(table, id, userId);
  }

  // ---------------------------------------------------------------------
  // `.eq('flashcard_set_id', setId).order('order_index')`

  predicate SortedByIndex(cards: seq<Flashcard>) {
    forall i, j :: 0 <= i < j < |cards| ==> cards[i].orderIndex <= cards[j].orderIndex
  }

  /** Places one card into an ordered list of cards. */
  function InsertByIndex(c: Flashcard, cards: seq<Flashcard>): (r: seq<Flashcard>)
    requires SortedByIndex(cards)
    ensures SortedByIndex(r)
    ensures multiset(r) == multiset(cards) + multiset{c}
    ensures |r| == |cards| + 1
    ensures r[0] == c || (|cards| > 0 && r[0] == cards[0])
  {
    if |cards| == 0 then [c]
    else if c.orderIndex <= cards[0].orderIndex then [c] + cards
    else
      var rest := InsertByIndex(c, cards[1..]);
      assert cards == [cards[0]] + cards[1..];
      assert cards[0].orderIndex <= rest[0].orderIndex;
      assert forall j :: 0 <= j < |rest| ==> rest[0].orderIndex <= rest[j].orderIndex;
      [cards[0]] + rest
  }

  /** The cards in ascending `order_index`, as a permutation of the input. */
  function SortByIndex(cards: seq<Flashcard>): (r: seq<Flashcard>)
    ensures SortedByIndex(r)
    ensures multiset(r) == multiset(cards)
    ensures |r| == |cards|
  {
    if |cards| == 0 then []
    else
      assert cards == [cards[0]] + cards[1..];
      InsertByIndex(cards[0], SortByIndex(cards[1..]))
  }

  /** The rows of the card table that belong to set `setId`, in table order. */
  function CardsOf(table: seq<Flashcard>, setId: string): seq<Flashcard> {
    Lists.Filter(table, (c: Flashcard) => c.setId == setId)
  }

  /** The cards of one set, in ascending `order_index`: every card of the
      set, each as often as in the table, and no other card. */
  function SelectCards(table: seq<Flashcard>, setId: string): (r: seq<Flashcard>)
    ensures SortedByIndex(r)
    ensures multiset(r) == multiset(CardsOf(table, setId))
    ensures forall i :: 0 <= i < |r| ==> r[i].setId == setId
  {
    var r := SortByIndex(CardsOf(table, setId));
    assert forall i :: 0 <= i < |r| ==> r[i] in multiset(CardsOf(table, setId));
    r
  }
}

=== FILE: strings.dfy ===
/** The few string operations of the JavaScript runtime the application
    relies on: `String.prototype.trim`, the decimal rendering of a natural
    number inside a template literal, and `Array.prototype.join` over
    strings. `Split` is the inverse of `Join` and exists to state what a
    joined text contains. */
module Strings {

  /** The characters removed by `trim` and matched by the regular-expression
      class `\s`: the ECMAScript WhiteSpace and LineTerminator code points. */
  predicate IsWhitespace(c: char) {
    || c == '\t' || c == '\n' || c == '\U{000B}' || c == '\U{000C}' || c == '\r'
    || c == ' ' || c == '\U{00A0}' || c == '\U{1680}'
    || ('\U{2000}' <= c <= '\U{200A}')
    || c == '\U{2028}' || c == '\U{2029}' || c == '\U{202F}' || c == '\U{205F}'
    || c == '\U{3000}' || c == '\U{FEFF}'
  }

  predicate AllWhitespace(s: string) {
    forall i :: 0 <= i < |s| ==> IsWhitespace(s[i])
  }

  /** Neither the first nor the last character is whitespace. */
  predicate Trimmed(s: string) {
    |s| == 0 || (!IsWhitespace(s[0]) && !IsWhitespace(s[|s| - 1]))
  }

  /** Drops the leading whitespace run. */
  function TrimStart(s: string): (r: string)
    ensures |r| <= |s| && r == s[|s| - |r|..]
    ensures AllWhitespace(s[..|s| - |r|])
    ensures |r| == 0 || !IsWhitespace(r[0])
  {
    if |s| > 0 && IsWhitespace(s[0]) then
      var r := TrimStart(s[1..]);
      assert s[1..][..|s| - 1 - |r|] == s[1..|s| - |r|];
      r
    else s
  }

  /** Drops the trailing whitespace run. */
  function TrimEnd(s: string): (r: string)
    ensures |r| <= |s| && r == s[..|r|]
    ensures AllWhitespace(s[|r|..])
    ensures |r| == 0 || !IsWhitespace(r[|r| - 1])
  {
    if |s| > 0 && IsWhitespace(s[|s| - 1]) then
      var r := TrimEnd(s[..|s| - 1]);
      assert s[..|s| - 1][|r|..] == s[|r|..|s| - 1];
      r
    else s
  }

  /** `String.prototype.trim`: the text between the leading and the trailing
      whitespace runs. */
  function Trim(s: string): (r: string)
    ensures Trimmed(r)
    ensures |r| <= |s|
  {
    var t := TrimStart(s);
    var r := TrimEnd(t);
    assert |r| > 0 ==> r[0] == t[0];
    r
  }

  lemma {:induction false} TrimStartOfWhitespacePrefix(w: string, x: string)
    requires AllWhitespace(w)
    ensures TrimStart(w + x) == TrimStart(x)
    decreases |w|
  {
    if |w| > 0 {
      assert (w + x)[1..] == w[1..] + x;
      TrimStartOfWhitespacePrefix(w[1..], x);
    } else {
      assert w + x == x;
    }
  }

  lemma {:induction false} TrimEndOfWhitespaceSuffix(x: string, w: string)
    requires AllWhitespace(w)
    ensures TrimEnd(x + w) == TrimEnd(x)
    decreases |w|
  {
    if |w| > 0 {
      assert (x + w)[..|x + w| - 1] == x + w[..|w| - 1];
      TrimEndOfWhitespaceSuffix(x, w[..|w| - 1]);
    } else {
      assert x + w == x;
    }
  }

  /** Trimming leaves a text without outer whitespace unchanged. */
  lemma TrimKeepsTrimmed(s: string)
    requires Trimmed(s)
    ensures Trim(s) == s
  {
  }

  /** Whitespace around a text is exactly what `trim` removes: together with
      `TrimKeepsTrimmed` this pins `Trim` down on every input. */
  lemma TrimDropsSurroundingWhitespace(w1: string, x: string, w2: string)
    requires AllWhitespace(w1) && AllWhitespace(w2)
    ensures Trim(w1 + x + w2) == Trim(x)
  {
    TrimIgnoresTrailing(w1 + x, w2);
    TrimIgnoresLeading(w1, x);
  }

  /** Leading whitespace does not change the trimmed text. */
  lemma TrimIgnoresLeading(w: string, x: string)
    requires AllWhitespace(w)
    ensures Trim(w + x) == Trim(x)
  {
    TrimUnfold(w + x);
    TrimUnfold(x);
    TrimStartOfWhitespacePrefix(w, x);
  }

  /** Trailing whitespace does not change the trimmed text. */
  lemma TrimIgnoresTrailing(x: string, w: string)
    requires AllWhitespace(w)
    ensures Trim(x + w) == Trim(x)
  {
    TrimUnfold(x + w);
    TrimUnfold(x);
    TrimStartEndCommute(x, w);
  }

  lemma TrimUnfold(s: string)
    ensures Trim(s) == TrimEnd(TrimStart(s))
  {
  }

  /** Trailing whitespace does not survive a trim, wherever the text starts. */
  lemma {:induction false} TrimStartEndCommute(x: string, w: string)
    requires AllWhitespace(w)
    ensures TrimEnd(TrimStart(x + w)) == TrimEnd(TrimStart(x))
    decreases |x|
  {
    if |x| > 0 && IsWhitespace(x[0]) {
      assert (x + w)[1..] == x[1..] + w;
      TrimStartEndCommute(x[1..], w);
    } else if |x| > 0 {
      TrimEndOfWhitespaceSuffix(x, w);
    } else {
      assert x + w == w;
      TrimStartOfWhitespacePrefix(w, "");
      assert w + "" == w;
    }
  }

  /** Trimming twice is trimming once. */
  lemma TrimIdempotent(s: string)
    ensures Trim(Trim(s)) == Trim(s)
  {
    TrimKeepsTrimmed(Trim(s));
  }

  // ---------------------------------------------------------------------
  // Decimal numerals

  predicate IsDigit(c: char) {
    '0' <= c <= '9'
  }

  function DigitChar(d: nat): (c: char)
    requires d < 10
    ensures IsDigit(c)
  {
    ['0', '1', '2', '3', '4', '5', '6', '7', '8', '9'][d]
  }

  function DigitValue(c: char): (d: nat)
    requires IsDigit(c)
    ensures d < 10
  {
    (c as int - '0' as int) as nat
  }

  /** The decimal rendering of `n`, as `${n}` produces it for a safe
      integer: no sign, no leading zero. */
  function Decimal(n: nat): (r: string)
    ensures |r| > 0
    ensures forall i :: 0 <= i < |r| ==> IsDigit(r[i])
    ensures |r| > 1 ==> r[0] != '0'
  {
    if n < 10 then [DigitChar(n)] else Decimal(n / 10) + [DigitChar(n % 10)]
  }

  /** Reads a string of digits as a natural number. */
  function ParseDecimal(s: string): nat
    requires forall i :: 0 <= i < |s| ==> IsDigit(s[i])
  {
    if |s| == 0 then 0 else 10 * ParseDecimal(s[..|s| - 1]) + DigitValue(s[|s| - 1])
  }

  lemma DigitRoundTrip(d: nat)
    requires d < 10
    ensures DigitValue(DigitChar(d)) == d
  {
  }

  /** Reading back a rendered number gives the number. */
  lemma {:induction false} DecimalRoundTrip(n: nat)
    ensures ParseDecimal(Decimal(n)) == n
  {
    if n < 10 {
      DigitRoundTrip(n);
      assert Decimal(n)[..0] == [];
    } else {
      var s := Decimal(n / 10) + [DigitChar(n % 10)];
      assert s[..|s| - 1] == Decimal(n / 10);
      DecimalRoundTrip(n / 10);
      DigitRoundTrip(n % 10);
    }
  }

  // ---------------------------------------------------------------------
  // Joining and splitting lines

  /** `lines.join(sep)`: the strings in order, separated by `sep`. */
  function Join(lines: seq<string>, sep: char): string {
    if |lines| == 0 then ""
    else if |lines| == 1 then lines[0]
    else lines[0] + [sep] + Join(lines[1..], sep)
  }

  /** The pieces of `s` between occurrences of `sep`; never empty. */
  function Split(s: string, sep: char): (r: seq<string>)
    ensures |r| > 0
  {
    if |s| == 0 then [""]
    else
      var rest := Split(s[1..], sep);
      if s[0] == sep then [""] + rest
      else [[s[0]] + rest[0]] + rest[1..]
  }

  /** A text free of the separator splits into itself alone. */
  lemma {:induction false} SplitWithoutSeparator(s: string, sep: char)
    requires sep !in s
    ensures Split(s, sep) == [s]
  {
    if |s| > 0 {
      SplitWithoutSeparator(s[1..], sep);
      assert [s[0]] + s[1..] == s;
    }
  }

  /** A separator-free prefix followed by a separator becomes the first piece. */
  lemma {:induction false} SplitAtFirstSeparator(a: string, sep: char, b: string)
    requires sep !in a
    ensures Split(a + [sep] + b, sep) == [a] + Split(b, sep)
    decreases |a|
  {
    var s := a + [sep] + b;
    if |a| == 0 {
      assert s[1..] == b;
    } else {
      assert s[1..] == a[1..] + [sep] + b;
      SplitAtFirstSeparator(a[1..], sep, b);
      assert [a[0]] + a[1..] == a;
    }
  }

  /** Splitting a join recovers the lines, provided no line contains the
      separator. */
  lemma {:induction false} SplitJoin(lines: seq<string>, sep: char)
    requires |lines| > 0
    requires forall i :: 0 <= i < |lines| ==> sep !in lines[i]
    ensures Split(Join(lines, sep), sep) == lines
    decreases |lines|
  {
    if |lines| == 1 {
      SplitWithoutSeparator(lines[0], sep);
    } else {
      SplitAtFirstSeparator(lines[0], sep, Join(lines[1..], sep));
      SplitJoin(lines[1..], sep);
      assert [lines[0]] + lines[1..] == lines;
    }
  }
}

=== FILE: study.dfy ===
/** The study page: loading a session, the two verdict handlers, the
    remediation round, completion and restart, as transitions over the
    page's state `{cards, cursor, review, complete}`.

    Each handler runs on the state of the render that showed its buttons.
    Its state updates are queued and applied in order once it returns, so a
    value it reads after "updating" it is still the old one; the model
    returns the state after all queued updates, together with the list of
    writes and generator requests it issued. The store's answers to the
    flag and completion writes are never inspected, so they are not inputs;
    the remediation round's generator and insert outcomes are. */
module Study {
  import opened Results
  import opened Types
  import opened Store
  import Generator
  import Js

  /** The page state; `flashcardSet` is the loaded set, which the handlers
      only read. */
  datatype Session = Session(
    flashcardSet: FlashcardSet,
    cards: seq<Flashcard>,
    cursor: nat,
    review: seq<Flashcard>,
    complete: bool)

  /** The state after a handler, and the effects it issued, in order. */
  datatype Step = Step(session: Session, effects: seq<Effect>)

  const NotFoundMessage := "Flashcard seti bulunamadı veya erişim izniniz yok"
  const EmptySetMessage := "Bu sette flashcard bulunamadı"
  const LoadFailedMessage := "Flashcard seti yüklenemedi"

  // ---------------------------------------------------------------------
  // Loading

  /** `fetchFlashcardSet`: the set lookup, then the card query. A set that
      is missing or owned by someone else and a set without cards are load
      errors; otherwise the session starts on the first card. */
  function Load(setQuery: SetQuery, cardsQuery: CardsQuery): (r: Result<Session, string>)
    ensures r.Success? <==> setQuery.SetRow? && cardsQuery.CardRows? && |cardsQuery.cards| > 0
    ensures r.Success? ==>
      && r.value.flashcardSet == setQuery.row && r.value.cards == cardsQuery.cards
      && r.value.cursor == 0 && r.value.review == [] && !r.value.complete
    ensures setQuery.NoSingleRow? ==> r == Failure(NotFoundMessage)
    ensures setQuery.SetQueryFailed? ==> r == Failure(MessageOr(setQuery.error, LoadFailedMessage))
    ensures setQuery.SetRow? && cardsQuery.CardsQueryFailed? ==>
      r == Failure(MessageOr(cardsQuery.error, LoadFailedMessage))
    ensures setQuery.SetRow? && (cardsQuery.NoData? || (cardsQuery.CardRows? && cardsQuery.cards == []))
      ==> r == Failure(EmptySetMessage)
  {
    match setQuery
    case NoSingleRow => Failure(NotFoundMessage)
    case SetQueryFailed(e) => Failure(MessageOr(e, LoadFailedMessage))
    case SetRow(row) =>
      match cardsQuery
      case CardsQueryFailed(e) => Failure(MessageOr(e, LoadFailedMessage))
      case NoData => Failure(EmptySetMessage)
      case CardRows(cards) =>
        if |cards| == 0 then Failure(EmptySetMessage)
        else Success(Session(row, cards, 0, [], false))
  }

  // ---------------------------------------------------------------------
  // The review list

  /** A card with this id is in the list. */
  predicate HasId(cards: seq<Flashcard>, id: string) {
    exists i :: 0 <= i < |cards| && cards[i].id == id
  }

  predicate DistinctIds(cards: seq<Flashcard>) {
    forall i, j :: 0 <= i < j < |cards| ==> cards[i].id != cards[j].id
  }

  /** `reviewCards.find(card => card.id === c.id) ? reviewCards : [...reviewCards, c]`. */
  function AddToReview(review: seq<Flashcard>, c: Flashcard): (r: seq<Flashcard>)
    ensures HasId(r, c.id)
    ensures forall id :: HasId(r, id) <==> HasId(review, id) || id == c.id
    ensures DistinctIds(review) ==> DistinctIds(r)
    ensures |review| <= |r| <= |review| + 1 && r[..|review|] == review
  {
    if HasId(review, c.id) then review
    else
      assert (review + [c])[|review|] == c;
      review + [c]
  }

  /** Marking the same card twice adds it once. */
  lemma AddToReviewIdempotent(review: seq<Flashcard>, c: Flashcard)
    ensures AddToReview(AddToReview(review, c), c) == AddToReview(review, c)
  {
  }

  /** The contents of the review cards, in review order. */
  function Contents(cards: seq<Flashcard>): (r: seq<string>)
    ensures |r| == |cards|
    ensures forall i :: 0 <= i < |cards| ==> r[i] == cards[i].content
  {
    seq(|cards|, i requires 0 <= i < |cards| => cards[i].content)
  }

  // ---------------------------------------------------------------------
  // Remediation and completion

  /** The store's answer to the insert of the explanatory rows: a failure,
      or the rows it returned (`newCards || []`). */
  datatype InsertOutcome = InsertFailed | InsertReturned(rows: seq<Flashcard>)

  /** How a remediation round went: the generator threw, or it returned
      `items` and the insert went as `insert` says. */
  datatype Remediation =
    | GeneratorFailed
    | Generated(items: seq<FlashcardContent>, insert: InsertOutcome)

  /** `completeSession`: the completion write is issued and the session is
      complete, whatever the write returns. */
  function CompleteSession(s: Session): Step {
    Step(s.(complete := true), [MarkSetCompleted(s.flashcardSet.id)])
  }

  /** The request sent for the cards of `pending`. */
  function ExplanationRequest(s: Session, pending: seq<Flashcard>): Effect {
    RequestGeneration(Generator.ExplanationsRequest(
      s.flashcardSet.grade, s.flashcardSet.subject, s.flashcardSet.topic, Contents(pending)))
  }

  /** `generateExplanatoryCards` run on state `s` with the review list
      `pending` it captured. With nothing pending the session completes.
      Otherwise the generator is asked about the pending cards, in order;
      its items become explanatory rows numbered on from the end of the
      card list; a successful insert appends the returned cards, moves the
      cursor to the first of them and clears the review list, and any
      failure completes the session with the cards unchanged. */
  function GenerateExplanatoryCards(s: Session, pending: seq<Flashcard>, rem: Remediation): (r: Step)
    ensures pending == [] ==> r == CompleteSession(s)
    ensures pending != [] ==> |r.effects| >= 1 && r.effects[0] == ExplanationRequest(s, pending)
    ensures pending != [] && rem.Generated? ==>
      |r.effects| >= 2 && r.effects[1] == InsertCards(RowsFor(s.flashcardSet.id, rem.items, |s.cards|, true))
    ensures pending != [] && rem.Generated? && rem.insert.InsertReturned? ==>
      && r.session.cards == s.cards + rem.insert.rows
      && r.session.cursor == |s.cards|
      && r.session.review == []
      && r.session.complete == s.complete
      && r.session.flashcardSet == s.flashcardSet
      && MarkSetCompleted(s.flashcardSet.id) !in r.effects
    ensures pending != [] && (rem.GeneratorFailed? || rem.insert.InsertFailed?) ==>
      && r.session == s.(complete := true)
      && r.effects[|r.effects| - 1] == MarkSetCompleted(s.flashcardSet.id)
  {
    if pending == [] then CompleteSession(s)
    else
      var request := ExplanationRequest(s, pending);
      match rem
      case GeneratorFailed =>
        Step(s.(complete := true), [request, MarkSetCompleted(s.flashcardSet.id)])
      case Generated(items, insert) =>
        var rows := RowsFor(s.flashcardSet.id, items, |s.cards|, true);
        match insert
        case InsertFailed =>
          Step(s.(complete := true), [request, InsertCards(rows), MarkSetCompleted(s.flashcardSet.id)])
        case InsertReturned(newCards) =>
          Step(s.(cards := s.cards + newCards, cursor := |s.cards|, review := []),
               [request, InsertCards(rows)])
  }

  // ---------------------------------------------------------------------
  // The verdict handlers

  /** The render guard: a card is shown, so its buttons can be pressed. */
  predicate CardShown(s: Session) {
    s.cursor < |s.cards|
  }

  predicate OnLastCard(s: Session) {
    s.cursor == |s.cards| - 1
  }

  /** Runs `tail` after the flag write `write`. */
  function After(write: Effect, tail: Step): (r: Step)
    ensures r.session == tail.session
    ensures |r.effects| == |tail.effects| + 1 && r.effects[0] == write
    ensures forall i :: 0 <= i < |tail.effects| ==> r.effects[i + 1] == tail.effects[i]
  {
    Step(tail.session, [write] + tail.effects)
  }

  /** `handleUnderstand`: writes understood=true, needs_review=false for the
      shown card, then moves to the next card; on the last card it starts a
      remediation round when the review list is non-empty and completes the
      session otherwise. Whether a card is explanatory plays no part. */
  function HandleUnderstand(s: Session, rem: Remediation): (r: Step)
    requires CardShown(s)
    ensures |r.effects| >= 1 && r.effects[0] == UpdateFlags(s.cards[s.cursor].id, true, false)
    ensures !OnLastCard(s) ==> r.session == s.(cursor := s.cursor + 1) && |r.effects| == 1
    ensures OnLastCard(s) && s.review == [] ==>
      r.session == s.(complete := true) && r.effects == [r.effects[0], MarkSetCompleted(s.flashcardSet.id)]
    ensures OnLastCard(s) && s.review != [] ==> |r.effects| >= 2 && r.effects[1] == ExplanationRequest(s, s.review)
  {
    var write := UpdateFlags(s.cards[s.cursor].id, true, false);
    if s.cursor < |s.cards| - 1 then Step(s.(cursor := s.cursor + 1), [write])
    else if |s.review| > 0 then After(write, GenerateExplanatoryCards(s, s.review, rem))
    else After(write, CompleteSession(s))
  }

  /** `handleDontUnderstand`: writes understood=false, needs_review=true for
      the shown card and queues it onto the review list unless a card with
      its id is there, then moves on. On the last card the remediation round
      runs with the review list as it was BEFORE this card was queued: the
      queued update is not visible to it. */
  function HandleDontUnderstand(s: Session, rem: Remediation): (r: Step)
    requires CardShown(s)
    ensures |r.effects| >= 1 && r.effects[0] == UpdateFlags(s.cards[s.cursor].id, false, true)
    ensures !OnLastCard(s) ==>
      r.session == s.(cursor := s.cursor + 1, review := AddToReview(s.review, s.cards[s.cursor])) && |r.effects| == 1
    ensures OnLastCard(s) && s.review != [] ==> |r.effects| >= 2 && r.effects[1] == ExplanationRequest(s, s.review)
  {
    var c := s.cards[s.cursor];
    var write := UpdateFlags(c.id, false, true);
    var queued := s.(review := AddToReview(s.review, c));
    if s.cursor < |s.cards| - 1 then Step(queued.(cursor := s.cursor + 1), [write])
    else After(write, GenerateExplanatoryCards(queued, s.review, rem))
  }

  /** `handleRestart`: back to the first card with an empty review list and
      the session open again, over the same cards, explanatory ones included. */
  function Restart(s: Session): (r: Session)
    ensures r.cards == s.cards && r.flashcardSet == s.flashcardSet
    ensures r.cursor == 0 && r.review == [] && !r.complete
  {
    s.(cursor := 0, review := [], complete := false)
  }

  /** The two buttons of a shown card. */
  datatype Verdict = Understood | NotUnderstood

  function Classify(s: Session, v: Verdict, rem: Remediation): Step
    requires CardShown(s)
  {
    match v
    case Understood => HandleUnderstand(s, rem)
    case NotUnderstood => HandleDontUnderstand(s, rem)
  }

  /** The flags a verdict writes: never both set. */
  lemma VerdictFlagsExclusive(s: Session, v: Verdict, rem: Remediation)
    requires CardShown(s)
    ensures var w := Classify(s, v, rem).effects[0];
      && w.UpdateFlags? && w.cardId == s.cards[s.cursor].id
      && w.understood == (v == Understood)
      && w.needsReview == (v == NotUnderstood)
      && !(w.understood && w.needsReview)
  {
  }

  // ---------------------------------------------------------------------
  // Properties of a session

  /** The cursor is on a card or just past the last one, and the review list
      holds cards of the session, each id once. */
  predicate Valid(s: Session) {
    && s.cursor <= |s.cards|
    && DistinctIds(s.review)
    && forall i :: 0 <= i < |s.review| ==> HasId(s.cards, s.review[i].id)
  }

  /** A loaded session is valid, shows its first card, and is what a restart
      of it gives back. */
  lemma LoadedSessionStarts(setQuery: SetQuery, cardsQuery: CardsQuery)
    requires Load(setQuery, cardsQuery).Success?
    ensures var s := Load(setQuery, cardsQuery).value;
      Valid(s) && CardShown(s) && Restart(s) == s
  {
  }

  /** Both verdicts keep a session valid, through a remediation round and
      completion included. */
  lemma {:induction false} VerdictKeepsValid(s: Session, v: Verdict, rem: Remediation)
    requires Valid(s) && CardShown(s)
    ensures Valid(Classify(s, v, rem).session)
  {
    var c := s.cards[s.cursor];
    var r := Classify(s, v, rem).session;
    assert HasId(s.cards, c.id);
    if !OnLastCard(s) || v == Understood || r.review == [] {
      assert r.cards == s.cards || r.review == [];
    } else {
      assert r.cards == s.cards;
      var q := AddToReview(s.review, c);
      assert r.review == q;
      forall i | 0 <= i < |q|
        ensures HasId(s.cards, q[i].id)
      {
        assert HasId(q, q[i].id);
      }
    }
  }

  /** A restart keeps a session valid. */
  lemma RestartKeepsValid(s: Session)
    requires Valid(s)
    ensures Valid(Restart(s))
    ensures Restart(Restart(s)) == Restart(s)
  {
  }

  /** On a card that is not the last, either verdict moves the cursor on by
      one and touches nothing but the review list; only "don't understand"
      can grow that list, by the shown card. */
  lemma VerdictAdvances(s: Session, v: Verdict, rem: Remediation)
    requires CardShown(s) && !OnLastCard(s)
    ensures var r := Classify(s, v, rem);
      && r.session.cursor == s.cursor + 1
      && r.session.cards == s.cards
      && r.session.complete == s.complete
      && r.session.flashcardSet == s.flashcardSet
      && (v == Understood ==> r.session.review == s.review)
      && (v == NotUnderstood ==> r.session.review == AddToReview(s.review, s.cards[s.cursor]))
      && r.effects == [UpdateFlags(s.cards[s.cursor].id, v == Understood, v == NotUnderstood)]
  {
  }

  /** Verdicts on successive cards that are not the last. */
  function Pass(s: Session, vs: seq<Verdict>): (r: Session)
    requires s.cursor + |vs| < |s.cards|
    ensures r.cursor == s.cursor + |vs| && r.cards == s.cards
    ensures r.complete == s.complete && r.flashcardSet == s.flashcardSet
    decreases |vs|
  {
    if vs == [] then s
    else
      VerdictAdvances(s, vs[0], GeneratorFailed);
      Pass(Classify(s, vs[0], GeneratorFailed).session, vs[1..])
  }

  /** The cards marked "don't understand" during a pass. */
  predicate MarkedIn(s: Session, vs: seq<Verdict>, id: string)
    requires s.cursor + |vs| <= |s.cards|
  {
    exists k :: 0 <= k < |vs| && vs[k] == NotUnderstood && s.cards[s.cursor + k].id == id
  }

  /** One verdict before the last card, as seen by the review list. */
  lemma OneVerdictCollects(s: Session, v: Verdict, id: string)
    requires CardShown(s) && !OnLastCard(s) && DistinctIds(s.review)
    ensures var t := Classify(s, v, GeneratorFailed).session;
      && DistinctIds(t.review)
      && (HasId(t.review, id) <==> HasId(s.review, id) || (v == NotUnderstood && s.cards[s.cursor].id == id))
  {
    VerdictAdvances(s, v, GeneratorFailed);
  }

  /** The cards marked in a pass are those marked at its first card and
      those marked in the rest of it. */
  lemma MarkedInShift(s: Session, t: Session, vs: seq<Verdict>, id: string)
    requires vs != [] && s.cursor + |vs| <= |s.cards|
    requires t.cards == s.cards && t.cursor == s.cursor + 1
    ensures MarkedIn(s, vs, id) <==>
      (vs[0] == NotUnderstood && s.cards[s.cursor].id == id) || MarkedIn(t, vs[1..], id)
  {
    if MarkedIn(t, vs[1..], id) {
      var k :| 0 <= k < |vs[1..]| && vs[1..][k] == NotUnderstood && t.cards[t.cursor + k].id == id;
      assert vs[k + 1] == NotUnderstood && s.cards[s.cursor + (k + 1)].id == id;
    }
    if MarkedIn(s, vs, id) {
      var k :| 0 <= k < |vs| && vs[k] == NotUnderstood && s.cards[s.cursor + k].id == id;
      if k > 0 {
        assert vs[1..][k - 1] == NotUnderstood && t.cards[t.cursor + (k - 1)].id == id;
      }
    }
  }

  /** After a pass the review list holds exactly the ids it held before and
      the ids of the cards marked "don't understand", each once. */
  lemma {:induction false} PassCollects(s: Session, vs: seq<Verdict>, id: string)
    requires s.cursor + |vs| < |s.cards|
    requires DistinctIds(s.review)
    ensures DistinctIds(Pass(s, vs).review)
    ensures HasId(Pass(s, vs).review, id) <==> HasId(s.review, id) || MarkedIn(s, vs, id)
    decreases |vs|
  {
    if vs != [] {
      var t := Classify(s, vs[0], GeneratorFailed).session;
      OneVerdictCollects(s, vs[0], id);
      VerdictAdvances(s, vs[0], GeneratorFailed);
      PassCollects(t, vs[1..], id);
      MarkedInShift(s, t, vs, id);
    }
  }

  /** "Understand" on the last card with an empty review list completes the
      session and asks the generator nothing. */
  lemma LastUnderstoodCompletes(s: Session, rem: Remediation)
    requires CardShown(s) && OnLastCard(s) && s.review == []
    ensures var r := HandleUnderstand(s, rem);
      && r.session.complete
      && r.session.cards == s.cards
      && forall i :: 0 <= i < |r.effects| ==> !r.effects[i].RequestGeneration?
  {
  }

  /** A successful round started from the last card: the generator is asked
      about the review cards' contents in review order, the rows it yields
      are numbered on from the old end of the list and flagged explanatory,
      the returned cards are appended and the cursor lands on the first of
      them with the review list cleared. */
  lemma RemediationAppends(s: Session, v: Verdict, items: seq<FlashcardContent>, rows: seq<Flashcard>)
    requires CardShown(s) && OnLastCard(s) && s.review != []
    ensures var r := Classify(s, v, Generated(items, InsertReturned(rows)));
      && r.session.cards == s.cards + rows
      && r.session.cursor == |s.cards|
      && r.session.review == []
      && r.session.complete == s.complete
      && |r.effects| == 3
      && r.effects[1].request.difficult == Contents(s.review)
      && var inserted := r.effects[2].rows;
         && |inserted| == |items|
         && forall i :: 0 <= i < |items| ==>
              && inserted[i].content == items[i].content
              && inserted[i].orderIndex == |s.cards| + i
              && inserted[i].isExplanatory && !inserted[i].understood && !inserted[i].needsReview
  {
  }

  /** A failed round, whether the generator or the insert failed, completes
      the session with the same cards; the completion write is issued last.
      Nothing else changes, except that a card not understood stays queued. */
  lemma RemediationFailureCompletes(s: Session, v: Verdict, rem: Remediation)
    requires CardShown(s) && OnLastCard(s) && s.review != []
    requires rem.GeneratorFailed? || rem.insert.InsertFailed?
    ensures var r := Classify(s, v, rem);
      && r.session.complete
      && r.session.cards == s.cards
      && r.session.cursor == s.cursor
      && r.effects[|r.effects| - 1] == MarkSetCompleted(s.flashcardSet.id)
    ensures Classify(s, v, rem).session ==
      (if v == Understood then s else s.(review := AddToReview(s.review, s.cards[s.cursor]))).(complete := true)
  {
  }

  /** "Don't understand" on the last card: the round it starts is about the
      review list as it stood before the card was queued. With an empty list
      the session completes at once and the card stays queued; otherwise the
      request names one card fewer than the list the card was queued onto. */
  lemma LastCardMissesItsOwnRound(s: Session, rem: Remediation)
    requires CardShown(s) && OnLastCard(s)
    requires !HasId(s.review, s.cards[s.cursor].id)
    ensures var r := HandleDontUnderstand(s, rem);
      && (s.review == [] ==>
            && r.session.complete
            && r.session.review == [s.cards[s.cursor]]
            && forall i :: 0 <= i < |r.effects| ==> !r.effects[i].RequestGeneration?)
      && (s.review != [] ==>
            && r.effects[1] == ExplanationRequest(s, s.review)
            && |r.effects[1].request.difficult| == |s.review| == |AddToReview(s.review, s.cards[s.cursor])| - 1)
  {
  }

  /** A generator that returns no cards leaves the cursor past the end of
      the list: no card is shown and the session is not complete, so neither
      verdict can be given again. */
  lemma EmptyRoundStalls(s: Session, v: Verdict)
    requires CardShown(s) && OnLastCard(s) && s.review != [] && !s.complete
    ensures var r := Classify(s, v, Generated([], InsertReturned([]))).session;
      !CardShown(r) && !r.complete && r.cursor == |r.cards|
  {
  }

  /** Nothing tells an explanatory card from another: with a non-empty
      review list, the last card starts a new round whatever its kind. */
  lemma RoundsRepeat(s: Session, v: Verdict, rem: Remediation)
    requires CardShown(s) && OnLastCard(s) && s.review != []
    requires s.cards[s.cursor].isExplanatory
    ensures Classify(s, v, rem).effects[1] == ExplanationRequest(s, s.review)
  {
  }

  // ---------------------------------------------------------------------
  // A worked session

  function SampleCard(id: string, content: string, index: int, explanatory: bool): Flashcard {
    Flashcard(id, "set", content, None, false, false, index, explanatory, "t")
  }

  const SampleSet := FlashcardSet("set", "user", 8, "Fen Bilimleri", "Fotosentez", false, "t", "t")
  const CardA := SampleCard("a", "A", 0, false)
  const CardB := SampleCard("b", "B", 1, false)
  const CardC := SampleCard("c", "C", 2, false)
  const CardD := SampleCard("d", "D", 3, true)
  const ItemD := FlashcardContent(Js.Str("D"), Js.Str("why"))

  /** The first pass over A, B, C: A understood, B not. */
  lemma WorkedFirstPass()
    ensures var s0 := Load(SetRow(SampleSet), CardRows([CardA, CardB, CardC])).value;
      && s0 == Session(SampleSet, [CardA, CardB, CardC], 0, [], false)
      && HandleUnderstand(s0, GeneratorFailed).session == Session(SampleSet, [CardA, CardB, CardC], 1, [], false)
      && HandleDontUnderstand(Session(SampleSet, [CardA, CardB, CardC], 1, [], false), GeneratorFailed).session
         == Session(SampleSet, [CardA, CardB, CardC], 2, [CardB], false)
  {
  }

  /** C understood: the round about B appends D. */
  lemma WorkedRound()
    ensures var r3 := HandleUnderstand(Session(SampleSet, [CardA, CardB, CardC], 2, [CardB], false),
                                       Generated([ItemD], InsertReturned([CardD])));
      && r3.session == Session(SampleSet, [CardA, CardB, CardC, CardD], 3, [], false)
      && r3.effects[1].request.difficult == ["B"]
      && r3.effects[2].rows == [CardRow("set", Js.Str("D"), Js.Str("why"), 3, false, false, true)]
  {
  }

  /** D understood: nothing is pending, so the set is completed. */
  lemma WorkedFinish()
    ensures var r4 := HandleUnderstand(Session(SampleSet, [CardA, CardB, CardC, CardD], 3, [], false), GeneratorFailed);
      && r4.session.complete
      && r4.effects == [UpdateFlags("d", true, false), MarkSetCompleted("set")]
  {
  }

  /** Cards A, B, C; B is not understood. The round about B yields D, the
      cursor lands on D, and understanding D completes the session with the
      set marked completed. */
  lemma WorkedSession()
    ensures
      var s0 := Load(SetRow(SampleSet), CardRows([CardA, CardB, CardC])).value;
      var s1 := HandleUnderstand(s0, GeneratorFailed).session;
      var s2 := HandleDontUnderstand(s1, GeneratorFailed).session;
      var r3 := HandleUnderstand(s2, Generated([ItemD], InsertReturned([CardD])));
      var r4 := HandleUnderstand(r3.session, GeneratorFailed);
      && s1.cursor == 1 && s1.review == []
      && s2.cursor == 2 && s2.review == [CardB]
      && r3.effects[1].request.difficult == ["B"]
      && r3.effects[2].rows == [CardRow("set", Js.Str("D"), Js.Str("why"), 3, false, false, true)]
      && r3.session.cards == [CardA, CardB, CardC, CardD] && r3.session.cursor == 3
      && r3.session.review == [] && !r3.session.complete
      && r4.session.complete
      && r4.effects == [UpdateFlags("d", true, false), MarkSetCompleted("set")]
  {
    WorkedFirstPass();
    WorkedRound();
    WorkedFinish();
  }
}

=== FILE: types.dfy ===
/** The records the application stores and passes around: a flashcard set,
    a flashcard, a signed-in user, one item of generator output, and the row
    payload inserted for a generated card. Identifiers and timestamps are
    opaque strings assigned by the store. */
module Types {
  import opened Results
  import Js

  datatype User = User(id: string, email: string, createdAt: string)

  /** One grade/subject/topic study unit. */
  datatype FlashcardSet = FlashcardSet(
    id: string,
    userId: string,
    grade: int,
    subject: string,
    topic: string,
    completed: bool,
    createdAt: string,
    updatedAt: string)

  /** One card of a set, as the store returns it. */
  datatype Flashcard = Flashcard(
    id: string,
    setId: string,
    content: string,
    explanation: Option<string>,
    understood: bool,
    needsReview: bool,
    orderIndex: int,
    isExplanatory: bool,
    createdAt: string)

  /** One item of generator output: the `content` and `explanation` taken
      from a parsed item, whatever JavaScript values they hold. */
  datatype FlashcardContent = FlashcardContent(content: Js.Value, explanation: Js.Value)

  /** The payload of one inserted card row. */
  datatype CardRow = CardRow(
    setId: string,
    content: Js.Value,
    explanation: Js.Value,
    orderIndex: int,
    understood: bool,
    needsReview: bool,
    isExplanatory: bool)

  /** The subjects offered by the set-creation wizard. */
  const Subjects: seq<string> := [
    "Matematik", "Fen Bilimleri", "Türkçe", "Sosyal Bilgiler", "Tarih",
    "Coğrafya", "Biyoloji", "Kimya", "Fizik", "Edebiyat", "Resim", "Müzik",
    "Beden Eğitimi", "Bilgisayar Bilimleri", "Yabancı Dil"]

  /** The grades offered by the set-creation wizard: 1 to 12. */
  const Grades: seq<int> := [1, 2, 3, 4, 5, 6, 7, 8, 9, 10, 11, 12]

  /** `Array.from({ length: 12 }, (_, i) => i + 1)`. */
  lemma GradesAreOneToTwelve()
    ensures |Grades| == 12
    ensures forall i :: 0 <= i < |Grades| ==> Grades[i] == i + 1
    ensures forall g :: g in Grades <==> 1 <= g <= 12
  {
  }

  /** The rows inserted for generator output `items`: one row per item, in
      order, numbered from `base`, with both classification flags cleared. */
  function RowsFor(setId: string, items: seq<FlashcardContent>, base: int, explanatory: bool): (rows: seq<CardRow>)
    ensures |rows| == |items|
    ensures forall i :: 0 <= i < |rows| ==>
      && rows[i].setId == setId
      && rows[i].content == items[i].content
      && rows[i].explanation == items[i].explanation
      && rows[i].orderIndex == base + i
      && !rows[i].understood && !rows[i].needsReview
      && rows[i].isExplanatory == explanatory
  {
    seq(|items|, i requires 0 <= i < |items| =>
      CardRow(setId, items[i].content, items[i].explanation, base + i, false, false, explanatory))
  }

  /** Rows for a concatenation are the rows of each part, the second part
      numbered on from where the first stopped. */
  lemma RowsForConcat(setId: string, a: seq<FlashcardContent>, b: seq<FlashcardContent>, base: int, explanatory: bool)
    ensures RowsFor(setId, a + b, base, explanatory)
         == RowsFor(setId, a, base, explanatory) + RowsFor(setId, b, base + |a|, explanatory)
  {
  }

  /** The generator items can be read back from the rows. */
  lemma RowsForKeepsContents(setId: string, items: seq<FlashcardContent>, base: int, explanatory: bool)
    ensures var rows := RowsFor(setId, items, base, explanatory);
      seq(|rows|, i requires 0 <= i < |rows| => FlashcardContent(rows[i].content, rows[i].explanation)) == items
  {
  }
}

=== FILE: wizard.dfy ===
/** The set-creation wizard: three steps that choose a grade, a subject and
    a topic, the gate on its primary button, and the submission that creates
    the set, asks the generator for ten cards and inserts them. */
module CreateSet {
  import opened Results
  import opened Strings
  import opened Types
  import opened Store
  import Generator
  import Rounding

  /** The wizard's state: the current step, the three choices, and whether
      a submission is running. */
  datatype Wizard = Wizard(step: int, grade: Option<int>, subject: string, topic: string, generating: bool)

  const CreateFailedMessage := "Çalışma seti oluşturulamadı. Lütfen tekrar deneyin."

  /** The number of cards asked for. */
  const CardCount := 10

  function Initial(): (w: Wizard)
    ensures w.step == 1 && w.grade == None && w.subject == "" && w.topic == "" && !w.generating
  {
    Wizard(1, None, "", "", false)
  }

  /** `handleNext`: one step on, up to step 3. */
  function Next(w: Wizard): (r: Wizard)
    ensures r == w.(step := r.step)
    ensures r.step == if w.step < 3 then w.step + 1 else w.step
  {
    if w.step < 3 then w.(step := w.step + 1) else w
  }

  /** `handleBack`: one step back, down to step 1; the choices are kept. */
  function Back(w: Wizard): (r: Wizard)
    ensures r == w.(step := r.step)
    ensures r.step == if w.step > 1 then w.step - 1 else w.step
  {
    if w.step > 1 then w.(step := w.step - 1) else w
  }

  /** `canProceed`: the current step's choice has been made. */
  predicate CanProceed(w: Wizard) {
    match w.step
    case 1 => w.grade.Some?
    case 2 => w.subject != ""
    case 3 => Trim(w.topic) != ""
    case _ => false
  }

  /** The primary button is enabled unless the step's choice is missing or
      a submission is running. */
  predicate PrimaryEnabled(w: Wizard) {
    CanProceed(w) && !w.generating
  }

  /** What the two footer buttons do. */
  datatype Action = Close | GoBack | GoNext | SubmitForm

  function SecondaryAction(w: Wizard): (a: Action)
    ensures a == Close || a == GoBack
    ensures a == Close <==> w.step == 1
  {
    if w.step == 1 then Close else GoBack
  }

  function PrimaryAction(w: Wizard): (a: Action)
    ensures a == GoNext || a == SubmitForm
    ensures a == SubmitForm <==> w.step == 3
  {
    if w.step == 3 then SubmitForm else GoNext
  }

  /** `Math.round((step / 3) * 100)`, the percentage beside the step. */
  function Progress(w: Wizard): (p: nat)
    requires 1 <= w.step <= 3
    ensures p <= 100
  {
    Rounding.RoundPercentBounded(w.step, 3);
    Rounding.RoundPercent(w.step, 3)
  }

  /** The three steps read 33, 67 and 100 percent, each the nearest whole
      percentage to the step's third. */
  lemma ProgressPerStep(w: Wizard)
    requires 1 <= w.step <= 3
    ensures Progress(w) == [33, 67, 100][w.step - 1]
    ensures (Progress(w) as real) - 0.5 <= (w.step as real) * 100.0 / 3.0 < (Progress(w) as real) + 0.5
  {
    Rounding.RoundPercentIsNearest(w.step, 3);
  }

  // ---------------------------------------------------------------------
  // Navigation

  /** What the user can do before submitting: press a footer button or make
      a choice. The grade and subject buttons offer only `Grades` and
      `Subjects`; the topic is free text. */
  datatype Event = PressPrimary | PressBack | PickGrade(g: int) | PickSubject(s: string) | TypeTopic(t: string)

  predicate Offered(e: Event) {
    match e
    case PickGrade(g) => g in Grades
    case PickSubject(s) => s in Subjects
    case _ => true
  }

  /** One event on an idle wizard. The primary button acts only when it is
      enabled, and at step 3 it submits, which `Submit` models; the back
      button at step 1 closes the wizard, which leaves its state alone. */
  function Apply(w: Wizard, e: Event): (r: Wizard)
    ensures r.generating == w.generating
  {
    match e
    case PressPrimary => if PrimaryEnabled(w) && PrimaryAction(w) == GoNext then Next(w) else w
    case PressBack => if SecondaryAction(w) == GoBack then Back(w) else w
    case PickGrade(g) => w.(grade := Some(g))
    case PickSubject(s) => w.(subject := s)
    case TypeTopic(t) => w.(topic := t)
  }

  function Run(w: Wizard, es: seq<Event>): Wizard
    decreases |es|
  {
    if es == [] then w else Run(Apply(w, es[0]), es[1..])
  }

  /** What holds of every wizard the user can reach: the step is within
      [1, 3], and every step passed has a valid choice. */
  predicate Reachable(w: Wizard) {
    && 1 <= w.step <= 3
    && !w.generating
    && (w.grade.Some? ==> w.grade.value in Grades)
    && (w.subject != "" ==> w.subject in Subjects)
    && (w.step >= 2 ==> w.grade.Some?)
    && (w.step == 3 ==> w.subject != "")
  }

  lemma ApplyKeepsReachable(w: Wizard, e: Event)
    requires Reachable(w) && Offered(e)
    ensures Reachable(Apply(w, e))
  {
    if e.PickSubject? {
      assert "" !in Subjects;
    }
  }

  /** Any run of offered events from the initial wizard stays reachable: in
      particular the step never leaves [1, 3]. */
  lemma {:induction false} RunKeepsReachable(w: Wizard, es: seq<Event>)
    requires Reachable(w)
    requires forall i :: 0 <= i < |es| ==> Offered(es[i])
    ensures Reachable(Run(w, es))
    decreases |es|
  {
    if es != [] {
      ApplyKeepsReachable(w, es[0]);
      RunKeepsReachable(Apply(w, es[0]), es[1..]);
    }
  }

  lemma InitialReachable()
    ensures Reachable(Initial())
  {
  }

  /** Below step 3 the primary button moves the wizard on exactly when the
      current step's choice is made and nothing is running; at step 3 it
      never changes the step. */
  lemma PrimaryAdvancesOnlyWhenEnabled(w: Wizard)
    requires 1 <= w.step <= 3
    ensures Apply(w, PressPrimary).step == w.step + 1 <==> w.step < 3 && PrimaryEnabled(w)
    ensures Apply(w, PressPrimary).step != w.step ==> Apply(w, PressPrimary).step == w.step + 1
  {
  }

  /** A topic of only whitespace keeps the submit button disabled. */
  lemma WhitespaceTopicBlocks(w: Wizard)
    requires w.step == 3 && AllWhitespace(w.topic)
    ensures !CanProceed(w) && !PrimaryEnabled(w)
  {
    TrimDropsSurroundingWhitespace(w.topic, "", "");
    assert w.topic + "" + "" == w.topic;
  }

  /** Back undoes Next below step 3, and Next undoes Back above step 1. */
  lemma NextBackInverse(w: Wizard)
    requires 1 <= w.step <= 3
    ensures w.step < 3 ==> Back(Next(w)) == w
    ensures w.step > 1 ==> Next(Back(w)) == w
  {
  }

  // ---------------------------------------------------------------------
  // Submission

  /** `if (!user || !grade || !subject || !topic) return;`: a grade of 0
      counts as missing, and the topic is checked untrimmed. */
  predicate SubmitAllowed(user: Option<User>, w: Wizard) {
    user.Some? && w.grade.Some? && w.grade.value != 0 && w.subject != "" && w.topic != ""
  }

  /** A reachable wizard whose primary button is enabled at step 3 passes
      the submission guard whenever a user is signed in. */
  lemma EnabledSubmitPassesGuard(user: Option<User>, w: Wizard)
    ensures Reachable(w) && w.step == 3 && PrimaryEnabled(w) && user.Some? ==> SubmitAllowed(user, w)
  {
    if Reachable(w) && w.step == 3 && PrimaryEnabled(w) && user.Some? {
      GradesAreOneToTwelve();
      assert 1 <= w.grade.value;
      assert Trim(w.topic) != "";
      assert |Trim(w.topic)| <= |w.topic|;
    }
  }

  /** The store's answer to the set insert. */
  datatype SetInsert = SetCreated(row: FlashcardSet) | SetInsertFailed

  /** How a submission ended: the guard stopped it, the new set was handed
      to `onSetCreated`, or an error was reported. */
  datatype Outcome = Ignored | Created(createdSet: FlashcardSet) | Failed(message: string)

  datatype Submission = Submission(wizard: Wizard, outcome: Outcome, effects: seq<Effect>)

  /** `handleSubmit`: inserts the set, asks the generator for `CardCount`
      cards, inserts one row per returned item, and reports the set. Every
      failure ends in the same message, and a set created before a later
      failure is left in place. `generated` is what `generateFlashcards`
      returned or threw; `cardsInserted` whether the card insert succeeded. */
  function Submit(w: Wizard, user: Option<User>, setInsert: SetInsert,
                  generated: Result<seq<FlashcardContent>, string>, cardsInserted: bool): (r: Submission)
    ensures !SubmitAllowed(user, w) ==> r == Submission(w, Ignored, [])
    ensures SubmitAllowed(user, w) ==> r.wizard == w.(generating := false)
    ensures r.outcome.Created? <==>
      SubmitAllowed(user, w) && setInsert.SetCreated? && generated.Success? && cardsInserted
    ensures r.outcome.Created? ==>
      && r.outcome.createdSet == setInsert.row
      && r.effects == [
           InsertSet(user.value.id, w.grade.value, w.subject, w.topic),
           RequestGeneration(Generator.CardsRequest(w.grade.value, w.subject, w.topic, CardCount)),
           InsertCards(RowsFor(setInsert.row.id, generated.value, 0, false))]
    ensures SubmitAllowed(user, w) && !r.outcome.Created? ==> r.outcome == Failed(CreateFailedMessage)
  {
    if !SubmitAllowed(user, w) then Submission(w, Ignored, [])
    else
      var idle := w.(generating := false);
      var g := w.grade.value;
      var createSet := InsertSet(user.value.id, g, w.subject, w.topic);
      var request := RequestGeneration(Generator.CardsRequest(g, w.subject, w.topic, CardCount));
      match setInsert
      case SetInsertFailed => Submission(idle, Failed(CreateFailedMessage), [createSet])
      case SetCreated(row) =>
        match generated
        case Failure(_) => Submission(idle, Failed(CreateFailedMessage), [createSet, request])
        case Success(items) =>
          var insert := InsertCards(RowsFor(row.id, items, 0, false));
          if cardsInserted then Submission(idle, Created(row), [createSet, request, insert])
          else Submission(idle, Failed(CreateFailedMessage), [createSet, request, insert])
  }

  /** The cards inserted for a new set are the generator's items, one row
      each and in order, numbered from 0 and unclassified: as many as the
      generator returned, whatever the requested count. */
  lemma CreatedCardsMatchGenerator(w: Wizard, user: Option<User>, row: FlashcardSet,
                                   items: seq<FlashcardContent>)
    requires SubmitAllowed(user, w)
    ensures var r := Submit(w, user, SetCreated(row), Success(items), true);
      && r.effects[1].request.count == 10
      && var rows := r.effects[2].rows;
         && |rows| == |items|
         && forall i :: 0 <= i < |items| ==>
              && rows[i].setId == row.id
              && rows[i].content == items[i].content && rows[i].explanation == items[i].explanation
              && rows[i].orderIndex == i
              && !rows[i].understood && !rows[i].needsReview && !rows[i].isExplanatory
  {
  }

  /** A generator or card-insert failure after the set was created leaves
      the set in the store: its insert was issued, and no delete follows. */
  lemma FailureLeavesSetBehind(w: Wizard, user: Option<User>, row: FlashcardSet,
                               generated: Result<seq<FlashcardContent>, string>, cardsInserted: bool)
    requires SubmitAllowed(user, w)
    requires generated.Failure? || !cardsInserted
    ensures var r := Submit(w, user, SetCreated(row), generated, cardsInserted);
      && r.outcome == Failed(CreateFailedMessage)
      && r.effects[0].InsertSet?
      && forall i :: 0 <= i < |r.effects| ==> !r.effects[i].DeleteSet?
  {
  }
}
